=== FILE: README.md ===
# CAN log converters: PicoScope CSV to Vector ASC, and CSV to BLF

This project models the per-row logic of two Python scripts that turn CAN FD captures into logs for bus-analysis tools, and proves properties of that model in Dafny.

- `savvycan-playback/convert_picoscope_csv_to_savvycan_csv.py` reads a PicoScope CSV export with `csv.DictReader`. It resolves each logical column (timestamp, ID, DLC, data, FD, BRS, ESI) from a list of header aliases. It then writes one Vector ASC frame line per row: `<time> 1 <ID hex>[x] Rx d <dlc> <payload>[ [FD BRS ESI]]`.
- `csv_to_blf.py` reads a CSV with `csv.reader`. It finds the `ID`, `Timestamp` and `LEN` columns by header name, in any order. The payload is one byte per column, starting right after `LEN`. From each row it builds the arbitration ID, the payload bytes and the extended-ID flag of a CAN FD frame.

Modules:

- `Wrappers`: `Option` and `Result`, used for every Python exception the scripts can raise.
- `PyText`: the parts of Python's `str` the scripts use.
  - `isspace()` with its full list of whitespace code points.
  - `strip()`, the argument-less `split()` and `' '.join(...)`.
  - The lemmas relating them: splitting a join gives the tokens back, and `split()` ignores surrounding whitespace.
- `PyInt`: `int(s)` and `int(s, 16)` as a parser that returns `None` where Python raises `ValueError`, together with the renderings `str(n)` and `f"{n:X}"`. It proves that parsing a rendering gives the number back.
- `PicoscopeAsc`: the converter, covering column lookup (`find_col`), payload tokenising (`hexstr_to_bytes`), the ID/DLC/flag decoding of one row into a `Frame`, and the printing of the frame line.
- `AscLine`: a reader for ASC frame lines, written from the line layout independently of the writer. Its round-trip lemmas show that every line the converter writes reads back as the frame it came from, when the timestamp is one token and no payload token starts with `[`. The line shows the payload tokens the DLC lets through. The converter does not reject a payload token such as `[AB`, and a line holding one does not read back (`AscLine.BracketTokenBreaksLine`).
- `AscExamples`: one worked row, from the CSV cells to the printed line.
- `CsvToBlf`: the BLF script, covering:
  - `hexstr_to_bytes(row, start_idx, length)`, both as a recursive definition and as the loop as written (`ScanKinds`);
  - the ID rule of that script;
  - the extended-ID predicate;
  - the decoding of one row, with each exception the script can raise.

The timestamp is not modelled as a number. In the converter the already formatted timestamp is a parameter (`stamp`) of the line writer. The BLF model checks that the timestamp cell exists and that `float()` accepts it, but does not read its value. Which strings `float()` accepts is a parameter.

Behaviour of the scripts a reader may not expect; the model follows the code:

- The ASC writer prints the payload tokens exactly as they appear in the data cell. It does not re-render them as two-digit hexadecimal. It cuts them at the DLC with Python slice semantics, so a negative DLC drops tokens from the end. It never pads.
- The `x` after the ID marks an FD frame (the FD flag column). It does not mark an ID above `0x7FF`. Example: an ID cell `0x1ABC` in a row without an FD flag is printed `1ABC` with no suffix.
- A header without any ID alias is not an error. Each row then gets the ID 0 (`PicoscopeAsc.IdWithoutColumn`).
- `int()` skips less whitespace than `strip()` and `split()`. The separators U+001C..U+001F count as whitespace for `str.isspace()`, but a numeral with one around it makes `int()` raise (`PyInt.IntSkipsLessThanStrip`).
- A negative ID is accepted and printed with its sign. The cell `-5` is printed `-5` (`PicoscopeAsc.IdExampleNegative`).
- The BLF script reads an ID in base 16 only when the cell contains an `x`. A cell such as `1FF` raises `ValueError` there (`CsvToBlf.BlfIdRejectsBareHex`). The ASC converter reads the same cell as 511 (`PicoscopeAsc.IdExampleHex`).

## Model

| member | source | states |
|---|---|---|
| `PicoscopeAsc.FindCol` | savvycan-playback/convert_picoscope_csv_to_savvycan_csv.py:5-9 | the result is the first alias, in preference order, that is a header name; `None` exactly when no alias is a header name |
| `PicoscopeAsc.FirstPresentUnique` | savvycan-playback/convert_picoscope_csv_to_savvycan_csv.py:5-9 | at most one result satisfies the first-present property, so that property pins down what `find_col` returns |
| `PicoscopeAsc.FindColPrefersAliasOrder` | savvycan-playback/convert_picoscope_csv_to_savvycan_csv.py:25 | with both `DATA` and `data` in the header, the data column is `data`: alias order decides, not header order |
| `PicoscopeAsc.FindColIsCaseSensitive` | savvycan-playback/convert_picoscope_csv_to_savvycan_csv.py:24 | a `LEN` header matches none of the length aliases: names are compared exactly |
| `PicoscopeAsc.ResolveSchema` | savvycan-playback/convert_picoscope_csv_to_savvycan_csv.py:22-28 | each of the seven logical columns is the first present name of its own alias list |
| `PicoscopeAsc.DictRow` | savvycan-playback/convert_picoscope_csv_to_savvycan_csv.py:18 | the rows `csv.DictReader` yields: the key `None` holds only the list of surplus cells; used by `PicoscopeAsc.IdWithoutColumn` |
| `PicoscopeAsc.Get` | savvycan-playback/convert_picoscope_csv_to_savvycan_csv.py:42 | `row.get(key, default)`; what it yields for a resolved and for an absent column is stated by `PicoscopeAsc.Flag` and `PicoscopeAsc.IdWithoutColumn` |
| `PicoscopeAsc.PayloadTokens` | savvycan-playback/convert_picoscope_csv_to_savvycan_csv.py:11-14 | a non-string cell gives no tokens; a string gives the whitespace-separated tokens of its text, each non-empty and free of whitespace |
| `PicoscopeAsc.PayloadKeepsText` | savvycan-playback/convert_picoscope_csv_to_savvycan_csv.py:14 | the tokens, concatenated, are exactly the non-whitespace characters of the cell, in order |
| `PicoscopeAsc.IdLooksHex` | savvycan-playback/convert_picoscope_csv_to_savvycan_csv.py:44 | the base-16 test for the ID, a `0x` prefix or a letter A-F of either case; its effect is stated by `PicoscopeAsc.IdReadsHexDigits`, `PicoscopeAsc.IdReadsPrefixedDigits` and `PicoscopeAsc.IdReadsDecimalDigits` |
| `PicoscopeAsc.ParseId` | savvycan-playback/convert_picoscope_csv_to_savvycan_csv.py:42-46 | the ID of a cell; stated by `PicoscopeAsc.IdDefaultsToZero` and the `IdReads*` lemmas below |
| `PicoscopeAsc.IdDefaultsToZero` | savvycan-playback/convert_picoscope_csv_to_savvycan_csv.py:42-46 | a non-string cell gives 0; a string is read in the base its spelling selects; when that base rejects it, the ID is 0 |
| `PicoscopeAsc.IdReadsHexDigits` | savvycan-playback/convert_picoscope_csv_to_savvycan_csv.py:44 | hexadecimal digits of either case that include a letter A-F, leading zeros allowed, are read in base 16 |
| `PicoscopeAsc.IdReadsDecimalDigits` | savvycan-playback/convert_picoscope_csv_to_savvycan_csv.py:44 | decimal digits, leading zeros allowed, are read in base 10 |
| `PicoscopeAsc.IdReadsPrefixedDigits` | savvycan-playback/convert_picoscope_csv_to_savvycan_csv.py:44 | `0x` followed by hexadecimal digits of either case is read in base 16 |
| `PicoscopeAsc.DecimalDigitsNotHex` | savvycan-playback/convert_picoscope_csv_to_savvycan_csv.py:44 | a string of decimal digits passes neither base-16 test |
| `PicoscopeAsc.IdReadsDecimal` | savvycan-playback/convert_picoscope_csv_to_savvycan_csv.py:42-46 | an ID cell holding `str(n)` is read as `n` |
| `PicoscopeAsc.IdReadsPrefixedHex` | savvycan-playback/convert_picoscope_csv_to_savvycan_csv.py:42-46 | an ID cell holding `0x` followed by upper-case hex digits is read in base 16 |
| `PicoscopeAsc.IdReadsHexWithLetter` | savvycan-playback/convert_picoscope_csv_to_savvycan_csv.py:42-46 | an unprefixed hexadecimal ID is read in base 16 when it contains one of the letters A-F |
| `PicoscopeAsc.IdExampleHex` | savvycan-playback/convert_picoscope_csv_to_savvycan_csv.py:44 | `1FF` is the ID 511 |
| `PicoscopeAsc.IdExampleDecimal` | savvycan-playback/convert_picoscope_csv_to_savvycan_csv.py:44-47 | `123` is read in base 10 and printed `7B` |
| `PicoscopeAsc.IdExamplePlainDigits` | savvycan-playback/convert_picoscope_csv_to_savvycan_csv.py:44 | `10` is ten: without a prefix or a letter, the ID is read in decimal |
| `PicoscopeAsc.IdExampleCapitalPrefix` | savvycan-playback/convert_picoscope_csv_to_savvycan_csv.py:43-46 | `0X10` selects no base-16 rule, base 10 rejects it, and the exception handler makes the ID 0 |
| `PicoscopeAsc.IdExampleLowerHex` | savvycan-playback/convert_picoscope_csv_to_savvycan_csv.py:44 | lower-case letters select base 16 too: `1ff` is 511 |
| `PicoscopeAsc.IdWithoutColumn` | savvycan-playback/convert_picoscope_csv_to_savvycan_csv.py:42 | with no ID column resolved, every row `csv.DictReader` can yield has ID 0, a row longer than the header included, and no error is raised |
| `PicoscopeAsc.IdExampleSeparator` | savvycan-playback/convert_picoscope_csv_to_savvycan_csv.py:42-46 | an ID cell with a U+001C before its digits makes `int()` raise, so the ID is 0 |
| `PicoscopeAsc.IdExampleNegative` | savvycan-playback/convert_picoscope_csv_to_savvycan_csv.py:44-47 | `-5` is read as -5 and printed `-5` |
| `PicoscopeAsc.ParseDlc` | savvycan-playback/convert_picoscope_csv_to_savvycan_csv.py:50-54 | a missing, non-string or empty DLC cell gives the payload token count; any other cell is read in base 16 when it holds a letter A-F and in base 10 otherwise, and gives the token count when that base rejects it |
| `PicoscopeAsc.DlcReadsDecimal` | savvycan-playback/convert_picoscope_csv_to_savvycan_csv.py:50-54 | a DLC cell holding `str(n)` is `n`, whatever the token count |
| `PicoscopeAsc.DlcReadsHexWithLetter` | savvycan-playback/convert_picoscope_csv_to_savvycan_csv.py:52 | a hexadecimal DLC containing a letter A-F is read in base 16 |
| `PicoscopeAsc.DlcReadsHexDigits` | savvycan-playback/convert_picoscope_csv_to_savvycan_csv.py:52 | hexadecimal digits of either case with a letter A-F are a DLC in base 16 |
| `PicoscopeAsc.DlcReadsDecimalDigits` | savvycan-playback/convert_picoscope_csv_to_savvycan_csv.py:52 | decimal digits, leading zeros allowed, are a DLC in base 10 |
| `PicoscopeAsc.DlcDefaultsToCount` | savvycan-playback/convert_picoscope_csv_to_savvycan_csv.py:50-54 | a non-empty DLC cell is read in the base its letters select; when that base rejects it, the payload token count is used |
| `PicoscopeAsc.DlcExamplePrefixed` | savvycan-playback/convert_picoscope_csv_to_savvycan_csv.py:51-54 | `0x10` does not select base 16 for the DLC; base 10 rejects it, so the token count is used |
| `PicoscopeAsc.DlcExamples` | savvycan-playback/convert_picoscope_csv_to_savvycan_csv.py:52 | `C` is a DLC of 12 and `-1` is a DLC of -1 |
| `PicoscopeAsc.DlcExampleLeadingZero` | savvycan-playback/convert_picoscope_csv_to_savvycan_csv.py:52 | `08` is a DLC of 8 |
| `PicoscopeAsc.Truthy` | savvycan-playback/convert_picoscope_csv_to_savvycan_csv.py:57-59 | Python's truth value of a resolved column name, the `if fdf_col` test; its effect is stated by `PicoscopeAsc.Flag` |
| `PicoscopeAsc.Flag` | savvycan-playback/convert_picoscope_csv_to_savvycan_csv.py:57-59 | a flag is set iff its column was resolved to a non-empty name, the row has that key, and the cell there is exactly `1` |
| `PicoscopeAsc.DecodeRow` | savvycan-playback/convert_picoscope_csv_to_savvycan_csv.py:42-59 | every payload token is a non-empty whitespace-free word, and a flag whose column is absent is never set |
| `PicoscopeAsc.Shown` | savvycan-playback/convert_picoscope_csv_to_savvycan_csv.py:73 | `data_bytes[:dlc_int]` as a prefix of the payload: for a non-negative DLC its length is the minimum of DLC and token count; a negative DLC drops that many tokens from the end |
| `PicoscopeAsc.ShownExamples` | savvycan-playback/convert_picoscope_csv_to_savvycan_csv.py:73 | slicing on concrete lists: a DLC of 3 cuts 4 tokens to 3; a DLC of 8 keeps 2 tokens; a DLC of -1 drops the last token; a DLC of -5 drops all |
| `PicoscopeAsc.FlagWordsSpec` | savvycan-playback/convert_picoscope_csv_to_savvycan_csv.py:62-68 | there is one flag name per set flag, each one a word; the list starts with `FD` iff the frame is FD |
| `PicoscopeAsc.FlagWords` | savvycan-playback/convert_picoscope_csv_to_savvycan_csv.py:62-68 | the names of the set flags; stated by `PicoscopeAsc.FlagWordsSpec` and `AscLine.ParseFlagWordsExact` |
| `PicoscopeAsc.FlagSection` | savvycan-playback/convert_picoscope_csv_to_savvycan_csv.py:69 | `" [FD BRS ESI]"` or nothing; stated by `PicoscopeAsc.BracketTokens` and `AscLine.FlagTokensRoundTrip` |
| `PicoscopeAsc.IdField` | savvycan-playback/convert_picoscope_csv_to_savvycan_csv.py:75 | `{canid_hex}{x_fd}`; stated by `PicoscopeAsc.IdFieldIsWord` and `AscLine.IdFieldRoundTrip` |
| `PicoscopeAsc.DataFields` | savvycan-playback/convert_picoscope_csv_to_savvycan_csv.py:73-75 | `{dlc_int} {data_str}{flag_str}`; stated by `PicoscopeAsc.DataFieldsTokens` |
| `PicoscopeAsc.LineBody` | savvycan-playback/convert_picoscope_csv_to_savvycan_csv.py:75 | the frame line without its newline; stated by `PicoscopeAsc.LineTokens` |
| `PicoscopeAsc.EncodeLine` | savvycan-playback/convert_picoscope_csv_to_savvycan_csv.py:75 | the frame line; stated by `PicoscopeAsc.LineIsOneLine` and `AscLine.LineRoundTrip` |
| `PicoscopeAsc.ConvertRow` | savvycan-playback/convert_picoscope_csv_to_savvycan_csv.py:35-76 | the line written for a row; stated by `AscLine.ConvertRowRoundTrip` and `AscExamples.ConvertRowExample` |
| `PicoscopeAsc.IdFieldIsWord` | savvycan-playback/convert_picoscope_csv_to_savvycan_csv.py:75 | the hexadecimal ID followed by the FD `x` is one token |
| `PicoscopeAsc.FlagTokensJoin` | savvycan-playback/convert_picoscope_csv_to_savvycan_csv.py:69 | the bracketed flag section is the flag tokens joined by single spaces |
| `PicoscopeAsc.BracketTokens` | savvycan-playback/convert_picoscope_csv_to_savvycan_csv.py:69 | the bracketed flag section splits back into the flag tokens |
| `PicoscopeAsc.PayloadThenFlags` | savvycan-playback/convert_picoscope_csv_to_savvycan_csv.py:73-75 | the joined payload followed by the flag section splits into the payload tokens followed by the flag tokens |
| `PicoscopeAsc.DataFieldsTokens` | savvycan-playback/convert_picoscope_csv_to_savvycan_csv.py:73-75 | the DLC, the payload shown and the flags split back field by field |
| `PicoscopeAsc.LineTokens` | savvycan-playback/convert_picoscope_csv_to_savvycan_csv.py:75 | a frame line splits into: timestamp, `1`, ID field, `Rx`, `d`, DLC, the payload tokens shown, and the flag tokens |
| `PicoscopeAsc.LineIsOneLine` | savvycan-playback/convert_picoscope_csv_to_savvycan_csv.py:75 | every frame is written as exactly one line: the only newline is the last character |
| `AscLine.FlagWordsRoundTrip` | savvycan-playback/convert_picoscope_csv_to_savvycan_csv.py:62-68 | the flag names written for a frame with at least one flag read back as its three flags |
| `AscLine.ParseFlagWordsExact` | savvycan-playback/convert_picoscope_csv_to_savvycan_csv.py:62-68 | the reader accepts only flag lists the writer can produce: non-empty, no repeats, in FD/BRS/ESI order |
| `AscLine.FlagTokensRoundTrip` | savvycan-playback/convert_picoscope_csv_to_savvycan_csv.py:62-69 | the flag section, empty or bracketed, reads back as the frame's flags |
| `AscLine.FirstBracket` | savvycan-playback/convert_picoscope_csv_to_savvycan_csv.py:69 | the flag section is found at the first token that opens a bracket; no earlier token opens one |
| `AscLine.FlagTokensOpen` | savvycan-playback/convert_picoscope_csv_to_savvycan_csv.py:69 | a non-empty flag section starts with a token that opens a bracket |
| `AscLine.IdFieldRoundTrip` | savvycan-playback/convert_picoscope_csv_to_savvycan_csv.py:75 | the ID field reads back as the ID and the FD flag |
| `AscLine.LineRoundTrip` | savvycan-playback/convert_picoscope_csv_to_savvycan_csv.py:75 | a line written for a frame reads back as: its timestamp, ID, DLC, the tokens the DLC lets through, and its flags (given a one-token timestamp and no payload token starting with `[`) |
| `AscLine.ConvertRowRoundTrip` | savvycan-playback/convert_picoscope_csv_to_savvycan_csv.py:35-76 | the line written for a CSV row reads back as the frame decoded from that row, when the timestamp is one token and no payload token of the row starts with `[` |
| `AscLine.BracketTokenBreaksLine` | savvycan-playback/convert_picoscope_csv_to_savvycan_csv.py:73-75 | a payload token starting with `[` is taken for the flag section: the line `0.0 1 1 Rx d 1 [AB` does not read back |
| `AscExamples.ConvertRowExample` | savvycan-playback/convert_picoscope_csv_to_savvycan_csv.py:35-76 | the row `ID=123, Timestamp=1.5, Len=3, Data=DE AD BE EF` becomes `1.5000000 1 7B Rx d 3 DE AD BE` |
| `PyText.Strip` | csv_to_blf.py:8 | `str.strip()`; stated by `PyText.StripSpec` |
| `PyText.Split` | savvycan-playback/convert_picoscope_csv_to_savvycan_csv.py:14 | the argument-less `str.split()`; stated by `PyText.SplitStrip`, `PyText.SplitJoin` and `PyText.SplitKeepsText` |
| `PyText.Join` | savvycan-playback/convert_picoscope_csv_to_savvycan_csv.py:73 | `' '.join(words)`; stated by `PyText.SplitJoin` |
| `PyText.StripSpec` | csv_to_blf.py:8 | `strip()` removes exactly the leading and trailing whitespace: the result is a slice of the input that neither starts nor ends with whitespace, with only whitespace cut on each side |
| `PyText.SplitStrip` | savvycan-playback/convert_picoscope_csv_to_savvycan_csv.py:14 | splitting the stripped text gives the same tokens as splitting the text itself |
| `PyText.SplitJoin` | savvycan-playback/convert_picoscope_csv_to_savvycan_csv.py:73 | words joined by single spaces split back into the same words |
| `PyText.SplitKeepsText` | savvycan-playback/convert_picoscope_csv_to_savvycan_csv.py:14 | `split()` loses exactly the whitespace: the tokens concatenated are the non-whitespace characters |
| `PyInt.ParseInt` | savvycan-playback/convert_picoscope_csv_to_savvycan_csv.py:44-52 | `int(s, base)`, `None` where Python raises `ValueError`; the same parser serves `int()` at csv_to_blf.py lines 10, 28 and 30; it skips the whitespace `PyInt.IntStrip` cuts; stated by `PyInt.ParseRender`, `PyInt.ParseDigits`, `PyInt.ParsePrefixedDigits` and `PyInt.DecimalRefusesHexLetters` |
| `PyInt.IntStrip` | savvycan-playback/convert_picoscope_csv_to_savvycan_csv.py:44 | the numeral `int()` reads: whitespace margins cut, where U+001C..U+001F do not count as whitespace; stated by `PyInt.IntSkipsLessThanStrip` |
| `PyInt.IntSkipsLessThanStrip` | savvycan-playback/convert_picoscope_csv_to_savvycan_csv.py:44 | `strip()` removes a leading U+001C but `int()` raises on it; a leading no-break space is skipped by `int()` |
| `PyInt.Render` | savvycan-playback/convert_picoscope_csv_to_savvycan_csv.py:47 | a number in base 10 or 16, with a `-` sign for a negative one; stated by `PyInt.RenderIsWord` and `PyInt.ParseRender` |
| `PyInt.HexUpper` | savvycan-playback/convert_picoscope_csv_to_savvycan_csv.py:47 | `f"{n:X}"`; stated by `PyInt.ParseRender`, `PyInt.ParsePrefixedHex` and `PyInt.HexExamples` |
| `PyInt.Decimal` | savvycan-playback/convert_picoscope_csv_to_savvycan_csv.py:75 | `f"{dlc_int}"`, the same as `str(n)`; stated by `PyInt.ParseRender` and `PicoscopeAsc.DlcReadsDecimal` |
| `PyInt.NatDigits` | savvycan-playback/convert_picoscope_csv_to_savvycan_csv.py:47 | the digits rendered for `n` are non-empty upper-case digits of the base, with no leading zero, and their value is `n` |
| `PyInt.RenderIsWord` | savvycan-playback/convert_picoscope_csv_to_savvycan_csv.py:47 | a rendering is one token without a newline; only base 16 produces letters; it never starts with `0x` |
| `PyInt.ParseRender` | savvycan-playback/convert_picoscope_csv_to_savvycan_csv.py:44-47 | `int(str(n)) == n` and `int(f"{n:X}", 16) == n`, negative numbers included |
| `PyInt.ParsePrefixedHex` | csv_to_blf.py:28 | `int("0x" + f"{n:X}", 16) == n` |
| `PyInt.ParseDigits` | savvycan-playback/convert_picoscope_csv_to_savvycan_csv.py:44 | digits of the base, in either case and with leading zeros, parse to their positional value |
| `PyInt.ParsePrefixedDigits` | csv_to_blf.py:28 | `int("0x" + d, 16)` is the value of the hexadecimal digits `d`, in either case |
| `PyInt.DecimalRefusesHexLetters` | csv_to_blf.py:28 | `int(s)` raises for any string containing one of the letters A-F |
| `PyInt.HexExamples` | savvycan-playback/convert_picoscope_csv_to_savvycan_csv.py:47 | `f"{n:X}"` for 511, 123 and 12 is `1FF`, `7B` and `C` |
| `CsvToBlf.Cap` | csv_to_blf.py:7 | how many indices `range(start, start + length)` visits: `length`, or none when it is zero or negative; stated by `CsvToBlf.ReadKinds` |
| `CsvToBlf.ReadKinds` | csv_to_blf.py:5-13 | the payload read has at most `length` entries, and none when `length` is zero or negative (the `range` is then empty) |
| `CsvToBlf.ScanKinds` | csv_to_blf.py:6-13 | the loop as written, with its `break` and its exceptions, computes the recursive definition of the scan |
| `CsvToBlf.ScanPayload` | csv_to_blf.py:5-13 | `hexstr_to_bytes` on a row equals the scan of its classified cells |
| `CsvToBlf.ReadPayload` | csv_to_blf.py:5-13 | `hexstr_to_bytes(row, start, length)`; stated by `CsvToBlf.ScanPayload`, `CsvToBlf.ReadPayloadOk`, `CsvToBlf.ReadPayloadValueError` and `CsvToBlf.ReadPayloadIndexError` |
| `CsvToBlf.Classify` | csv_to_blf.py:8-10 | what one payload cell holds; stated by `CsvToBlf.ClassifyBlank`, `CsvToBlf.ClassifyDigits` and `CsvToBlf.ReadPayloadValueError` |
| `CsvToBlf.ClassifyBlank` | csv_to_blf.py:8-12 | a cell of whitespace only, or an empty one, ends the payload |
| `CsvToBlf.ClassifyDigits` | csv_to_blf.py:8-10 | hexadecimal digits of either case, leading zeros allowed, are a value |
| `CsvToBlf.KindsSpec` | csv_to_blf.py:8-10 | each cell is classified on its own: empty once stripped, a base-16 value, or unparseable |
| `CsvToBlf.ReadPayloadOk` | csv_to_blf.py:5-13 | on success, byte `k` is the base-16 value of cell `start + k`, and the read stopped after `length` cells or at a cell empty once stripped |
| `CsvToBlf.ReadPayloadValueError` | csv_to_blf.py:10 | a `ValueError` happens at a cell inside the scanned range that is non-empty once stripped and not a base-16 number, and every cell before it held a value |
| `CsvToBlf.ReadPayloadIndexError` | csv_to_blf.py:8 | an `IndexError` happens at the first index past the row's end, inside the scanned range, after cells that all held values |
| `CsvToBlf.ClassifyHex` | csv_to_blf.py:8-10 | an upper-case hexadecimal cell holds its value |
| `CsvToBlf.PayloadRoundTrip` | csv_to_blf.py:5-13 | hexadecimal cells for `bytes`, followed by the length cap or an empty cell, read back as `bytes` |
| `CsvToBlf.ReadPayloadStopsAtGap` | csv_to_blf.py:11-12 | rows that agree up to and including an empty cell give the same result: nothing after the first gap is read |
| `CsvToBlf.BlfIdLooksHex` | csv_to_blf.py:28 | the base-16 test for the ID, `'x' in` or `startswith('0x')`; stated by `CsvToBlf.HexPrefixHasX` |
| `CsvToBlf.HexPrefixHasX` | csv_to_blf.py:28 | the `startswith('0x')` test adds nothing to the `'x' in` test |
| `CsvToBlf.ParseBlfId` | csv_to_blf.py:28 | the ID rule of this script; stated by `CsvToBlf.HexPrefixHasX` and the `BlfId*` lemmas |
| `CsvToBlf.BlfIdReadsDecimal` | csv_to_blf.py:28 | a decimal ID cell is read as its value |
| `CsvToBlf.BlfIdReadsPrefixedHex` | csv_to_blf.py:28 | an ID cell of `0x` and upper-case hex digits is read in base 16 |
| `CsvToBlf.BlfIdRejectsBareHex` | csv_to_blf.py:28 | an ID cell with a letter A-F but no `x` raises `ValueError` |
| `CsvToBlf.BlfIdExampleBareHex` | csv_to_blf.py:28 | `1FF` is rejected |
| `CsvToBlf.BlfIdExampleSeparator` | csv_to_blf.py:28 | an ID cell with a U+001C before its digits raises `ValueError` |
| `CsvToBlf.BlfIdExamplePrefixedHex` | csv_to_blf.py:28 | `0x1FF` is 511 |
| `CsvToBlf.ExtendedBoundary` | csv_to_blf.py:38 | an ID is extended iff it is at least 2048: `2047` is not, `0x800` is |
| `CsvToBlf.IsExtended` | csv_to_blf.py:38 | `can_id > 0x7FF`; stated by `CsvToBlf.ExtendedBoundary` |
| `CsvToBlf.IdAt` | csv_to_blf.py:28 | the ID cell with the exception it raises; stated by `CsvToBlf.DecodeBlfRowError` |
| `CsvToBlf.DecimalAt` | csv_to_blf.py:30 | `int(row[len_idx])` with the exception it raises; stated by `CsvToBlf.DecodeBlfRowError` |
| `CsvToBlf.StampAt` | csv_to_blf.py:29 | `float(row[ts_idx])` with the exception it raises; stated by `CsvToBlf.DecodeBlfRowError` |
| `CsvToBlf.AllBytesIn` | csv_to_blf.py:36 | every value lies in 0..255, as `bytes(data)` demands; stated by `CsvToBlf.DecodeBlfRow` and `CsvToBlf.DecodeBlfRowError` |
| `CsvToBlf.DecodeBlfRow` | csv_to_blf.py:27-38 | a decoded frame's ID is what the ID rule reads from the ID cell; its timestamp cell exists and `float()` accepts it; its data is what `hexstr_to_bytes` reads after LEN for the decimal LEN value, and all of it is bytes; it is extended iff the ID exceeds `0x7FF` |
| `CsvToBlf.DecodeBlfRowError` | csv_to_blf.py:28-36 | a failing row raises the first exception met, in this order: `IndexError` or `ValueError` at the ID cell, then at the timestamp cell, then at the LEN cell, then the payload error, then the `bytes(data)` range error for a value outside 0..255 |
| `CsvToBlf.BlfRowRoundTrip` | csv_to_blf.py:27-38 | a row written from a frame (decimal ID, a timestamp `float()` accepts, decimal length, one hex cell per byte) decodes back to that frame |

## Left out

- Timestamps. The converter's `float(row[timestamp_col])` with its fallback to `0.0`, and the `.7f` formatting, are not modelled. The formatted timestamp is a parameter of the line writer. Floating point has no faithful model here.
- File handling: opening and writing files, `main`, `glob`, `os.makedirs`, and the three-line ASC preamble written once per file.
- CSV tokenising by `csv.DictReader` and `csv.reader`, including quoting. A row is given as the map or list those readers produce. A `DictReader` row's padding `None` and its overflow list are both a non-string cell (`NotText`).
- A converter input with no header line at all, where `fieldnames` is `None`. The header is always a list of names here.
- Python's `int()` grammar is abstracted: underscores between digits and non-ASCII decimal digits are not accepted by the model. Python accepts both.
- Python's limit of 4300 digits on decimal conversion between `int` and `str` is not modelled. Python raises `ValueError` for a longer decimal numeral in `int(s)`. The converter then uses ID 0 or the token count. The BLF script stops at lines 28 and 30. The model reads the value instead.
- `PyInt.ParseRender`: `int(str(n)) == n` holds in Python only while `str(n)` has at most 4300 digits; the lemma states it for every `n`.
- `PicoscopeAsc.EncodeLine`: always yields a line. In Python, `f"{dlc_int}"` at line 75 raises, uncaught, when a hexadecimal DLC has more than 4300 decimal digits, and that ends the whole file.
- `PicoscopeAsc.DecodeRow`: its contract states properties of the whole frame. The value of each field is stated by the ID, DLC, payload and flag members above, and for a whole row by `AscExamples.ConvertRowExample`.
- Python's `float()` grammar. At line 29 the BLF model checks the timestamp cell with the parameter `isFloat`, which says which strings `float()` accepts. The timestamp value is not kept in the frame.
- The BLF script's header lookups (`header.index`, which raises when a column is missing) and its `data_start`. The ID and LEN column indices are parameters, and the payload starts right after LEN.
- The BLF script's `CANDataFrame` construction, `MDF.append` and `MDF.save`, which are library calls. The frame keeps only the ID, payload and extended flag, because FD and bit-rate switch are always set.
- A fixed-column CSV writer (`Timestamp,ID,Len,Data0..Data63`) does not appear in the two scripts and is not part of this model. `CsvToBlf.BlfRowRoundTrip` states the round trip against the row layout such a writer would produce.

=== FILE: asc_examples.dfy ===
/** A worked conversion: one PicoScope row, decoded and printed. */
module AscExamples {
  import opened Wrappers
  import opened PyText
  import opened PyInt
  import opened PicoscopeAsc

  /** A row with header `ID,Timestamp,Len,Data` holding `123`, `1.5`, `3` and
      `DE AD BE EF` becomes the line `... 1 7B Rx d 3 DE AD BE`: the ID is read
      in decimal and printed in hexadecimal, and the DLC cuts the payload. */
  lemma ConvertRowExample()
    ensures ConvertRow(ResolveSchema(ExampleHeader()), ExampleRow(), "1.5000000") ==
      "1.5000000 1 7B Rx d 3 DE AD BE\n"
  {
    ExampleSchema();
    ExampleFrame();
    ExampleLine();
  }

  function ExampleHeader(): seq<string> {
    ["ID", "Timestamp", "Len", "Data"]
  }

  function ExampleRow(): Row {
    map[Some("ID") := Text("123"), Some("Timestamp") := Text("1.5"),
        Some("Len") := Text("3"), Some("Data") := Text("DE AD BE EF")]
  }

  lemma ExampleSchema()
    ensures ResolveSchema(ExampleHeader()) ==
      Schema(Some("Timestamp"), Some("ID"), Some("Len"), Some("Data"), None, None, None)
  {
    ExampleNamedColumns();
    ExampleLengthColumn();
    ExampleNoFlagColumns();
  }

  lemma ExampleNamedColumns()
    ensures FindCol(ExampleHeader(), TimestampAliases) == Some("Timestamp")
    ensures FindCol(ExampleHeader(), IdAliases) == Some("ID")
    ensures FindCol(ExampleHeader(), DataAliases) == Some("Data")
  {
    var h := ExampleHeader();
    FirstPresentUnique(h, TimestampAliases, FindCol(h, TimestampAliases), Some("Timestamp"));
    FirstPresentUnique(h, IdAliases, FindCol(h, IdAliases), Some("ID"));
    FirstPresentUnique(h, DataAliases, FindCol(h, DataAliases), Some("Data"));
  }

  lemma ExampleLengthColumn()
    ensures FindCol(ExampleHeader(), DlcAliases) == Some("Len")
  {
    var h := ExampleHeader();
    assert "DLC" != h[0] && "DLC" != h[1] && "DLC" != h[2] && "DLC" != h[3];
    FirstPresentUnique(h, DlcAliases, FindCol(h, DlcAliases), Some("Len"));
  }

  lemma ExampleNoFlagColumns()
    ensures FindCol(ExampleHeader(), FdAliases) == None
    ensures FindCol(ExampleHeader(), BrsAliases) == None
    ensures FindCol(ExampleHeader(), EsiAliases) == None
  {
    var h := ExampleHeader();
    assert forall k :: 0 <= k < |FdAliases| ==> FdAliases[k] !in h;
    FirstPresentUnique(h, FdAliases, FindCol(h, FdAliases), None);
    FirstPresentUnique(h, BrsAliases, FindCol(h, BrsAliases), None);
    FirstPresentUnique(h, EsiAliases, FindCol(h, EsiAliases), None);
  }

  lemma ExampleFrame()
    ensures DecodeRow(Schema(Some("Timestamp"), Some("ID"), Some("Len"), Some("Data"), None, None, None), ExampleRow()) ==
      Frame(123, 3, ["DE", "AD", "BE", "EF"], false, false, false)
  {
    ExampleCells();
    ExamplePayload();
    IdExampleDecimal();
    ExampleDlc();
    DecodeRowOf(Schema(Some("Timestamp"), Some("ID"), Some("Len"), Some("Data"), None, None, None), ExampleRow(),
      Text("DE AD BE EF"), Text("123"), Text("3"), ["DE", "AD", "BE", "EF"], 123, 3);
  }

  lemma ExampleCells()
    ensures Get(ExampleRow(), Some("Data"), Text("")) == Text("DE AD BE EF")
    ensures Get(ExampleRow(), Some("ID"), Text("0")) == Text("123")
    ensures Get(ExampleRow(), Some("Len"), NotText) == Text("3")
  {
  }

  /** A row whose cells decode to `payload`, `id` and `dlc`, under a schema
      without flag columns, decodes to the frame of those fields. */
  lemma DecodeRowOf(schema: Schema, row: Row, dataCell: Cell, idCell: Cell, dlcCell: Cell,
                    payload: seq<string>, id: int, dlc: int)
    requires Get(row, schema.data, Text("")) == dataCell && PayloadTokens(dataCell) == payload
    requires Get(row, schema.id, Text("0")) == idCell && ParseId(idCell) == id
    requires Get(row, schema.dlc, NotText) == dlcCell && ParseDlc(dlcCell, |payload|) == dlc
    requires schema.fd == None && schema.brs == None && schema.esi == None
    ensures DecodeRow(schema, row) == Frame(id, dlc, payload, false, false, false)
  {
  }

  lemma ExamplePayload()
    ensures PayloadTokens(Text("DE AD BE EF")) == ["DE", "AD", "BE", "EF"]
  {
    var ws := ["DE", "AD", "BE", "EF"];
    assert AllWords(ws);
    assert Join(ws) == "DE AD BE EF";
    SplitJoin(ws);
  }

  lemma ExampleDlc()
    ensures ParseDlc(Text("3"), 4) == 3
  {
    assert NatDigits(3, 10) == "3";
    DlcReadsDecimal(3, 4);
  }

  lemma ExampleLine()
    ensures EncodeLine(Frame(123, 3, ["DE", "AD", "BE", "EF"], false, false, false), "1.5000000") ==
      "1.5000000 1 7B Rx d 3 DE AD BE\n"
  {
    var f := Frame(123, 3, ["DE", "AD", "BE", "EF"], false, false, false);
    ExampleFields();
    assert EncodeLine(f, "1.5000000") == "1.5000000" + " " + ("1" + " " + ("7B" + " " + ("Rx" + " " + ("d" + " " + "3 DE AD BE")))) + "\n";
  }

  lemma ExampleFields()
    ensures IdField(Frame(123, 3, ["DE", "AD", "BE", "EF"], false, false, false)) == "7B"
    ensures DataFields(Frame(123, 3, ["DE", "AD", "BE", "EF"], false, false, false)) == "3 DE AD BE"
  {
    var f := Frame(123, 3, ["DE", "AD", "BE", "EF"], false, false, false);
    HexExamples();
    assert NatDigits(3, 10) == "3";
    assert Shown(f.payload, 3) == ["DE", "AD", "BE"];
    assert Join(["DE", "AD", "BE"]) == "DE AD BE";
    assert FlagWords(false, false, false) == [];
  }

}

=== FILE: asc_line.dfy ===
/** A reader for the frame lines of a Vector ASC (CAN FD) log in the layout
    `<time> 1 <ID hex>[x] Rx d <dlc> <payload>[ [FD BRS ESI]]`.

    The reader is written from the layout, independently of the writer in
    `PicoscopeAsc`. The round-trip lemmas below show that every line the
    converter writes reads back as the frame it was written from, provided the
    timestamp is one token and no payload token starts with `[`. The writer
    does not check the latter, and `BracketTokenBreaksLine` shows a line that
    does not read back. */
module AscLine {
  import opened Wrappers
  import opened PyText
  import opened PyInt
  import opened PicoscopeAsc

  /** What a frame line says: the timestamp token, the ID, the DLC, the payload
      tokens printed and the three flags. */
  datatype LineView = LineView(stamp: string, id: int, dlc: int, payload: seq<string>, fd: bool, brs: bool, esi: bool)

  /** The flags named by `ws`: some of `FD`, `BRS`, `ESI`, at least one, each at
      most once and in that order. */
  function ParseFlagWords(ws: seq<string>): Option<(bool, bool, bool)> {
    var fd := |ws| > 0 && ws[0] == "FD";
    var r1 := if fd then ws[1..] else ws;
    var brs := |r1| > 0 && r1[0] == "BRS";
    var r2 := if brs then r1[1..] else r1;
    var esi := |r2| > 0 && r2[0] == "ESI";
    var r3 := if esi then r2[1..] else r2;
    if |ws| > 0 && |r3| == 0 then Some((fd, brs, esi)) else None
  }

  predicate OpensBracket(w: string) {
    |w| > 0 && w[0] == '['
  }

  /** Index of the first token that opens a square bracket; `|ws|` if none does. */
  function FirstBracket(ws: seq<string>): (k: nat)
    ensures k <= |ws|
    ensures forall j :: 0 <= j < k ==> !OpensBracket(ws[j])
    ensures k < |ws| ==> OpensBracket(ws[k])
  {
    if |ws| == 0 || OpensBracket(ws[0]) then 0
    else
      var k := FirstBracket(ws[1..]);
      assert forall j :: 1 <= j < k + 1 ==> ws[j] == ws[1..][j - 1];
      k + 1
  }

  /** The flags of the bracketed tokens that end a line; no tokens, no flags. */
  function ParseFlagTokens(ts: seq<string>): Option<(bool, bool, bool)> {
    if |ts| == 0 then Some((false, false, false))
    else
      var j := Join(ts);
      if |j| >= 2 && j[0] == '[' && j[|j| - 1] == ']' then ParseFlagWords(Split(j[1..|j| - 1]))
      else None
  }

  /** The ID token: hexadecimal digits, followed by `x` on an FD frame. */
  function ParseIdField(w: string): Option<(int, bool)> {
    var fd := |w| > 0 && w[|w| - 1] == 'x';
    var id :- ParseInt(if fd then w[..|w| - 1] else w, 16);
    Some((id, fd))
  }

  /** The fields of a line, from its tokens. The `x` on the ID and the `FD`
      flag must agree. */
  function ParseFields(ts: seq<string>): Option<LineView> {
    if |ts| < 6 || ts[1] != "1" || ts[3] != "Rx" || ts[4] != "d" then None
    else
      var idField :- ParseIdField(ts[2]);
      var dlc :- ParseInt(ts[5], 10);
      var rest := ts[6..];
      var k := FirstBracket(rest);
      var flags :- ParseFlagTokens(rest[k..]);
      if flags.0 != idField.1 then None
      else Some(LineView(ts[0], idField.0, dlc, rest[..k], flags.0, flags.1, flags.2))
  }

  /** One newline-terminated line of the log. */
  function ParseLine(line: string): Option<LineView> {
    if |line| == 0 || line[|line| - 1] != '\n' then None
    else ParseFields(Split(line[..|line| - 1]))
  }

  // ---------------------------------------------------------------------------
  // Properties

  /** The flag names written for a frame read back as its flags. */
  lemma FlagWordsRoundTrip(fd: bool, brs: bool, esi: bool)
    requires fd || brs || esi
    ensures ParseFlagWords(FlagWords(fd, brs, esi)) == Some((fd, brs, esi))
  {
  }

  /** Only the flag names the writer produces are accepted. */
  lemma ParseFlagWordsExact(ws: seq<string>, fd: bool, brs: bool, esi: bool)
    requires ParseFlagWords(ws) == Some((fd, brs, esi))
    ensures ws == FlagWords(fd, brs, esi) && |ws| > 0
  {
    var r1 := if fd then ws[1..] else ws;
    var r2 := if brs then r1[1..] else r1;
    if fd {
      assert ws == [ws[0]] + r1;
    }
    if brs {
      assert r1 == [r1[0]] + r2;
    }
    if esi {
      assert r2 == [r2[0]] + r2[1..];
    }
  }

  /** The bracketed flag tokens of a line read back as the frame's flags. */
  lemma FlagTokensRoundTrip(fd: bool, brs: bool, esi: bool)
    ensures ParseFlagTokens(FlagTokens(FlagWords(fd, brs, esi))) == Some((fd, brs, esi))
  {
    var words := FlagWords(fd, brs, esi);
    if |words| > 0 {
      FlagWordsSpec(fd, brs, esi);
      FlagTokensJoin(words);
      var j := "[" + Join(words) + "]";
      assert j[1..|j| - 1] == Join(words);
      SplitJoin(words);
      FlagWordsRoundTrip(fd, brs, esi);
    }
  }

  /** With no bracket among the first tokens and one opening the rest, the
      first bracket is where the rest starts. */
  lemma {:induction false} FirstBracketAt(xs: seq<string>, ys: seq<string>)
    requires forall j :: 0 <= j < |xs| ==> !OpensBracket(xs[j])
    requires |ys| == 0 || OpensBracket(ys[0])
    ensures FirstBracket(xs + ys) == |xs|
  {
    if |xs| > 0 {
      assert (xs + ys)[1..] == xs[1..] + ys;
      assert (xs + ys)[0] == xs[0];
      FirstBracketAt(xs[1..], ys);
    } else {
      assert xs + ys == ys;
    }
  }

  /** A flag section, when present, opens with a bracket. */
  lemma FlagTokensOpen(words: seq<string>)
    ensures |FlagTokens(words)| == 0 || OpensBracket(FlagTokens(words)[0])
  {
    if |words| > 0 {
      var v := ["[" + words[0]] + words[1..];
      var t := FlagTokens(words);
      if |v| == 1 {
        assert t[0] == v[0] + "]";
      } else {
        assert t[0] == v[0];
      }
    }
  }

  /** The ID field reads back as the ID and the FD flag. */
  lemma IdFieldRoundTrip(f: Frame)
    ensures ParseIdField(IdField(f)) == Some((f.id, f.fd))
  {
    var h := HexUpper(f.id);
    var w := IdField(f);
    RenderChars(f.id, 16);
    ParseRender(f.id, 16);
    if f.fd {
      SplitConcat(h, "x");
    } else {
      assert w == h;
      assert h[|h| - 1] != 'x';
    }
  }

  /** A newline-terminated line is read from the tokens of its body. */
  lemma ParseLineBody(body: string)
    ensures ParseLine(body + "\n") == ParseFields(Split(body))
  {
    SplitConcat(body, "\n");
  }

  /** Fields that read back individually read back together. */
  lemma ParseFieldsOf(stamp: string, idWord: string, dlcWord: string, shown: seq<string>, flags: seq<string>,
                      id: int, dlc: int, fd: bool, brs: bool, esi: bool)
    requires ParseIdField(idWord) == Some((id, fd))
    requires ParseInt(dlcWord, 10) == Some(dlc)
    requires forall j :: 0 <= j < |shown| ==> !OpensBracket(shown[j])
    requires |flags| == 0 || OpensBracket(flags[0])
    requires ParseFlagTokens(flags) == Some((fd, brs, esi))
    ensures ParseFields([stamp, "1", idWord, "Rx", "d", dlcWord] + (shown + flags)) ==
      Some(LineView(stamp, id, dlc, shown, fd, brs, esi))
  {
    var rest := shown + flags;
    var ts := [stamp, "1", idWord, "Rx", "d", dlcWord] + rest;
    assert ts[1] == "1" && ts[3] == "Rx" && ts[4] == "d";
    assert ts[0] == stamp && ts[2] == idWord && ts[5] == dlcWord;
    assert ts[6..] == rest;
    FirstBracketAt(shown, flags);
    assert rest[..|shown|] == shown && rest[|shown|..] == flags;
  }

  /** A frame line reads back as its timestamp, ID, DLC, the payload tokens the
      DLC lets through, and its flags, provided the timestamp is one token and
      no payload token starts with `[`. */
  lemma LineRoundTrip(f: Frame, stamp: string)
    requires IsWord(stamp) && AllWords(f.payload)
    requires forall k :: 0 <= k < |f.payload| ==> !OpensBracket(f.payload[k])
    ensures ParseLine(EncodeLine(f, stamp)) ==
      Some(LineView(stamp, f.id, f.dlc, Shown(f.payload, f.dlc), f.fd, f.brs, f.esi))
  {
    var shown := Shown(f.payload, f.dlc);
    var words := FlagWords(f.fd, f.brs, f.esi);
    ParseLineBody(LineBody(f, stamp));
    LineTokens(f, stamp);
    IdFieldRoundTrip(f);
    ParseRender(f.dlc, 10);
    FlagTokensOpen(words);
    FlagTokensRoundTrip(f.fd, f.brs, f.esi);
    assert forall j :: 0 <= j < |shown| ==> shown[j] == f.payload[j];
    ParseFieldsOf(stamp, IdField(f), Decimal(f.dlc), shown, FlagTokens(words),
      f.id, f.dlc, f.fd, f.brs, f.esi);
  }

  /** A converted row reads back as the frame decoded from it. */
  lemma ConvertRowRoundTrip(schema: Schema, row: Row, stamp: string)
    requires IsWord(stamp)
    requires forall k :: 0 <= k < |DecodeRow(schema, row).payload| ==> !OpensBracket(DecodeRow(schema, row).payload[k])
    ensures var f := DecodeRow(schema, row);
      ParseLine(ConvertRow(schema, row, stamp)) ==
        Some(LineView(stamp, f.id, f.dlc, Shown(f.payload, f.dlc), f.fd, f.brs, f.esi))
  {
    LineRoundTrip(DecodeRow(schema, row), stamp);
  }

  /** A payload token that starts with `[` is taken for the flag section: the
      line `0.0 1 1 Rx d 1 [AB` does not read back. */
  lemma BracketTokenBreaksLine()
    ensures ParseLine(EncodeLine(Frame(1, 1, ["[AB"], false, false, false), "0.0")) == None
  {
    var f := Frame(1, 1, ["[AB"], false, false, false);
    assert IsWord("0.0") && AllWords(f.payload);
    LineTokens(f, "0.0");
    ParseLineBody(LineBody(f, "0.0"));
    assert Shown(f.payload, 1) == ["[AB"];
    var ts := Split(LineBody(f, "0.0"));
    assert ts == [ "0.0", "1", IdField(f), "Rx", "d", Decimal(1), "[AB"];
    IdFieldRoundTrip(f);
    assert NatDigits(1, 10) == "1";
    assert ts[6..] == ["[AB"];
    assert FirstBracket(ts[6..]) == 0;
    assert Join(["[AB"]) == "[AB";
  }
}

=== FILE: csv_to_blf.dfy ===
/** The per-row handling of `csv_to_blf.py`: a row of a CSV export whose header
    names an `ID`, a `Timestamp` and a `LEN` column, in any order, with one
    payload byte per column right after `LEN`, becomes the arbitration ID,
    payload bytes and extended-ID flag of a CAN FD frame.

    A row is the list of cells `csv.reader` yields. Where the script would stop
    with an exception, the model yields an `Err` naming the exception and the
    cell it came from. */
module CsvToBlf {
  import opened Wrappers
  import opened PyText
  import opened PyInt

  /** The exceptions a row can raise: `IndexError` reading a cell past the end
      of the row, `ValueError` at a cell that is not a number in the expected
      base, and `ByteRange` when `bytes(data)` meets a value outside 0..255. */
  datatype BlfError = IndexError(index: int) | ValueError(index: int) | ByteRange

  /** The number of indices `range(start, start + length)` visits. */
  function Cap(length: int): nat {
    if length > 0 then length else 0
  }

  /** What one payload cell holds once stripped: nothing, a base-16 value, or
      text `int(val, 16)` rejects. */
  datatype CellKind = Blank | Byte(value: int) | Bad

  /** `val = row[i].strip()`, tested for emptiness, then `int(val, 16)`. */
  function Classify(cell: string): CellKind {
    var val := Strip(cell);
    if val == "" then Blank
    else match ParseInt(val, 16)
      case Some(b) => Byte(b)
      case None => Bad
  }

  /** The cells of a row, classified. */
  function Kinds(row: seq<string>): (ks: seq<CellKind>)
    ensures |ks| == |row|
  {
    if |row| == 0 then [] else [Classify(row[0])] + Kinds(row[1..])
  }

  /** Kind `i` is the class of cell `i`. */
  lemma {:induction false} KindsSpec(row: seq<string>)
    ensures forall i :: 0 <= i < |row| ==> Kinds(row)[i] == Classify(row[i])
  {
    if |row| > 0 {
      KindsSpec(row[1..]);
      forall i | 1 <= i < |row|
        ensures Kinds(row)[i] == Classify(row[i])
      {
        assert row[1..][i - 1] == row[i];
      }
    }
  }

  /** `hexstr_to_bytes(row, start_idx, length)`: the base-16 values of the cells
      from `start` on, up to `length` of them, stopping early at the first cell
      that is empty once stripped. */
  function ReadPayload(row: seq<string>, start: nat, length: int): Result<seq<int>, BlfError> {
    ReadKinds(Kinds(row), start, length)
  }

  /** The scan of `hexstr_to_bytes` over classified cells. */
  function ReadKinds(ks: seq<CellKind>, start: nat, length: int): (r: Result<seq<int>, BlfError>)
    ensures r.Ok? ==> |r.value| <= Cap(length)
    decreases Cap(length)
  {
    if length <= 0 then Ok([])
    else if start >= |ks| then Err(IndexError(start))
    else match ks[start]
      case Blank => Ok([])
      case Bad => Err(ValueError(start))
      case Byte(b) => Prepend([b], ReadKinds(ks, start + 1, length - 1))
  }

  /** `data` followed by the bytes of `r`, or the failure of `r`. */
  function Prepend(data: seq<int>, r: Result<seq<int>, BlfError>): Result<seq<int>, BlfError> {
    match r
    case Ok(rest) => Ok(data + rest)
    case Err(e) => Err(e)
  }

  /** `hexstr_to_bytes` as a loop over the row's cells. */
  method ScanPayload(row: seq<string>, start: nat, length: int) returns (r: Result<seq<int>, BlfError>)
    ensures r == ReadPayload(row, start, length)
  {
    r := ScanKinds(Kinds(row), start, length);
  }

  /** The loop of `hexstr_to_bytes`, as written: one cell per iteration, a
      `break` at the first empty cell, an exception at a missing or
      unparseable cell. */
  method ScanKinds(ks: seq<CellKind>, start: nat, length: int) returns (r: Result<seq<int>, BlfError>)
    ensures r == ReadKinds(ks, start, length)
  {
    var data: seq<int> := [];
    var i := start;
    PrependNothing(ReadKinds(ks, start, length));
    while i < start + length
      invariant start <= i <= start + Cap(length)
      invariant ReadKinds(ks, start, length) == Prepend(data, ReadKinds(ks, i, start + length - i))
      decreases start + length - i
    {
      if i >= |ks| {
        assert ReadKinds(ks, i, start + length - i) == Err(IndexError(i));
        return Err(IndexError(i));
      }
      match ks[i]
      case Blank =>
        break;
      case Bad =>
        assert ReadKinds(ks, i, start + length - i) == Err(ValueError(i));
        return Err(ValueError(i));
      case Byte(b) =>
        ReadKindsTake(ks, i, start + length - i, data);
        data := data + [b];
        i := i + 1;
    }
    assert ReadKinds(ks, i, start + length - i) == Ok([]);
    assert data + [] == data;
    return Ok(data);
  }

  lemma PrependNothing(r: Result<seq<int>, BlfError>)
    ensures Prepend([], r) == r
  {
    if r.Ok? {
      assert [] + r.value == r.value;
    }
  }

  /** Taking the value of cell `i` moves it from the rest of the scan into the
      bytes read so far. */
  lemma ReadKindsTake(ks: seq<CellKind>, i: nat, rem: int, data: seq<int>)
    requires 0 < rem && i < |ks| && ks[i].Byte?
    ensures Prepend(data, ReadKinds(ks, i, rem)) == Prepend(data + [ks[i].value], ReadKinds(ks, i + 1, rem - 1))
  {
    PrependTwice(data, [ks[i].value], ReadKinds(ks, i + 1, rem - 1));
  }

  lemma PrependTwice(a: seq<int>, b: seq<int>, r: Result<seq<int>, BlfError>)
    ensures Prepend(a, Prepend(b, r)) == Prepend(a + b, r)
  {
    if r.Ok? {
      assert a + (b + r.value) == a + b + r.value;
    }
  }

  /** Every cell from `start` up to, not including, `end` holds a value. */
  ghost predicate AllBytes(ks: seq<CellKind>, start: nat, end: int) {
    forall i :: start <= i < end && i < |ks| ==> ks[i].Byte?
  }

  /** On success, element `k` of the result is the value of cell `start + k`,
      and the scan ended at the cap or at an empty cell. */
  lemma {:induction false} ReadKindsOk(ks: seq<CellKind>, start: nat, length: int, data: seq<int>)
    requires ReadKinds(ks, start, length) == Ok(data)
    ensures |data| == 0 || start + |data| <= |ks|
    ensures forall k :: 0 <= k < |data| ==> ks[start + k] == Byte(data[k])
    ensures |data| == Cap(length) || (start + |data| < |ks| && ks[start + |data|] == Blank)
    decreases Cap(length)
  {
    if length > 0 && start < |ks| && ks[start].Byte? {
      var rest := ReadKinds(ks, start + 1, length - 1).value;
      ReadKindsOk(ks, start + 1, length - 1, rest);
      assert data == [ks[start].value] + rest;
      forall k | 0 <= k < |data|
        ensures ks[start + k] == Byte(data[k])
      {
        if k > 0 {
          assert data[k] == rest[k - 1];
        }
      }
    }
  }

  /** An `IndexError` is raised at the first index past the end of the row,
      inside the range scanned, and only after cells that all hold values. */
  lemma {:induction false} ReadKindsIndexError(ks: seq<CellKind>, start: nat, length: int, i: int)
    requires ReadKinds(ks, start, length) == Err(IndexError(i))
    ensures start <= i < start + length
    ensures i == if start < |ks| then |ks| else start
    ensures AllBytes(ks, start, i)
    decreases Cap(length)
  {
    if start < |ks| {
      ReadKindsIndexError(ks, start + 1, length - 1, i);
    }
  }

  /** A `ValueError` is raised at a non-empty cell that does not parse, inside
      the range scanned, and only after cells that all hold values. */
  lemma {:induction false} ReadKindsValueError(ks: seq<CellKind>, start: nat, length: int, i: int)
    requires ReadKinds(ks, start, length) == Err(ValueError(i))
    ensures start <= i < start + length && i < |ks| && ks[i] == Bad && AllBytes(ks, start, i)
    decreases Cap(length)
  {
    if ks[start].Byte? {
      ReadKindsValueError(ks, start + 1, length - 1, i);
    }
  }

  /** A cell of whitespace only, or an empty one, is where the payload ends. */
  lemma ClassifyBlank(cell: string)
    requires AllSpace(cell)
    ensures Classify(cell) == Blank
  {
    TrimLeftSpec(cell);
    if TrimLeft(cell) != [] {
      assert TrimLeft(cell)[0] == cell[StripStart(cell)];
    }
  }

  /** Hexadecimal digits of either case, leading zeros allowed, are a value. */
  lemma ClassifyDigits(d: string)
    requires |d| > 0 && AllDigits(d, 16)
    ensures Classify(d) == Byte(DigitsValue(d, 16))
  {
    assert IsDigit(d[0], 16) && IsDigit(d[|d| - 1], 16);
    Untrimmed(d);
    ParseDigits(d, 16);
  }

  /** On success, byte `k` is the value of cell `start + k`,
      and the scan ended at `length` cells or at a cell empty once stripped. */
  lemma ReadPayloadOk(row: seq<string>, start: nat, length: int, data: seq<int>)
    requires ReadPayload(row, start, length) == Ok(data)
    ensures |data| <= Cap(length) && (|data| == 0 || start + |data| <= |row|)
    ensures forall k :: 0 <= k < |data| ==> Classify(row[start + k]) == Byte(data[k])
    ensures |data| == Cap(length) || (start + |data| < |row| && Classify(row[start + |data|]) == Blank)
  {
    KindsSpec(row);
    var ks := Kinds(row);
    ReadKindsOk(ks, start, length, data);
  }

  /** A `ValueError` names a cell inside the range scanned that is non-empty once
      stripped and is not a base-16 number; every cell before it held a value. */
  lemma ReadPayloadValueError(row: seq<string>, start: nat, length: int, i: int)
    requires ReadPayload(row, start, length) == Err(ValueError(i))
    ensures start <= i < start + length && i < |row| && Classify(row[i]) == Bad
    ensures forall j :: start <= j < i ==> Classify(row[j]).Byte?
  {
    KindsSpec(row);
    ReadKindsValueError(Kinds(row), start, length, i);
  }

  /** An `IndexError` names the first index past the end of the row, inside the
      range scanned, after cells that all held values. */
  lemma ReadPayloadIndexError(row: seq<string>, start: nat, length: int, i: int)
    requires ReadPayload(row, start, length) == Err(IndexError(i))
    ensures start <= i < start + length && i == (if start < |row| then |row| else start)
    ensures forall j :: start <= j < |row| ==> Classify(row[j]).Byte?
  {
    KindsSpec(row);
    ReadKindsIndexError(Kinds(row), start, length, i);
  }

  /** An upper-case hexadecimal cell holds its value. */
  lemma ClassifyHex(n: int)
    ensures Classify(HexUpper(n)) == Byte(n)
  {
    var h := HexUpper(n);
    RenderIsWord(n, 16);
    Untrimmed(h);
    ParseRender(n, 16);
  }

  /** Cells holding `bytes`, then the cap or an empty cell, read back as `bytes`. */
  lemma {:induction false} ReadKindsRoundTrip(ks: seq<CellKind>, start: nat, length: int, bytes: seq<int>)
    requires start + |bytes| <= |ks|
    requires forall k :: 0 <= k < |bytes| ==> ks[start + k] == Byte(bytes[k])
    requires |bytes| <= length
    requires |bytes| == length || (start + |bytes| < |ks| && ks[start + |bytes|] == Blank)
    ensures ReadKinds(ks, start, length) == Ok(bytes)
    decreases |bytes|
  {
    if |bytes| > 0 {
      assert ks[start] == Byte(bytes[0]);
      ReadKindsRoundTrip(ks, start + 1, length - 1, bytes[1..]);
      assert [bytes[0]] + bytes[1..] == bytes;
    }
  }

  /** Upper-case hexadecimal cells, then the cap or an empty cell, read back as
      the bytes they were written from. */
  lemma PayloadRoundTrip(row: seq<string>, start: nat, length: int, bytes: seq<int>)
    requires start + |bytes| <= |row|
    requires forall k :: 0 <= k < |bytes| ==> row[start + k] == HexUpper(bytes[k])
    requires |bytes| <= length
    requires |bytes| == length || (start + |bytes| < |row| && Strip(row[start + |bytes|]) == "")
    ensures ReadPayload(row, start, length) == Ok(bytes)
  {
    KindsSpec(row);
    var ks := Kinds(row);
    forall k | 0 <= k < |bytes|
      ensures ks[start + k] == Byte(bytes[k])
    {
      ClassifyHex(bytes[k]);
    }
    ReadKindsRoundTrip(ks, start, length, bytes);
  }

  /** Nothing after the first empty cell is read: rows that agree up to and
      including that cell give the same result. */
  lemma {:induction false} ReadKindsStopsAtBlank(ks1: seq<CellKind>, ks2: seq<CellKind>, start: nat, length: int, gap: nat)
    requires start <= gap < start + length && gap < |ks1| && gap < |ks2|
    requires ks1[gap] == Blank
    requires forall i :: start <= i <= gap ==> ks1[i] == ks2[i]
    ensures ReadKinds(ks1, start, length) == ReadKinds(ks2, start, length)
    decreases gap - start
  {
    if start < gap {
      ReadKindsStopsAtBlank(ks1, ks2, start + 1, length - 1, gap);
    }
  }

  /** Rows that agree up to and including an empty cell read the same payload:
      `hexstr_to_bytes` reads nothing after the first empty cell. */
  lemma ReadPayloadStopsAtGap(row1: seq<string>, row2: seq<string>, start: nat, length: int, gap: nat)
    requires start <= gap < start + length && gap < |row1| && gap < |row2|
    requires Strip(row1[gap]) == ""
    requires forall i :: start <= i <= gap ==> row1[i] == row2[i]
    ensures ReadPayload(row1, start, length) == ReadPayload(row2, start, length)
  {
    KindsSpec(row1);
    KindsSpec(row2);
    ReadKindsStopsAtBlank(Kinds(row1), Kinds(row2), start, length, gap);
  }

  /** The ID rule of this script: base 16 iff the cell holds an `x` anywhere
      (the `0x` test is subsumed), base 10 otherwise. */
  predicate BlfIdLooksHex(s: string) {
    'x' in s || StartsWith(s, "0x")
  }

  /** `int(row[id_idx], 16)` or `int(row[id_idx])`; `None` where it raises. */
  function ParseBlfId(s: string): Option<int> {
    ParseInt(s, if BlfIdLooksHex(s) then 16 else 10)
  }

  /** The `0x` test adds nothing to the `x` test. */
  lemma HexPrefixHasX(s: string)
    ensures BlfIdLooksHex(s) <==> 'x' in s
  {
    if StartsWith(s, "0x") {
      assert s[1] == s[..2][1];
    }
  }

  /** A decimal ID reads back as itself. */
  lemma BlfIdReadsDecimal(n: int)
    ensures ParseBlfId(Decimal(n)) == Some(n)
  {
    RenderIsWord(n, 10);
    RenderChars(n, 10);
    ParseRender(n, 10);
  }

  /** A `0x`-prefixed upper-case hexadecimal ID reads back as itself. */
  lemma BlfIdReadsPrefixedHex(n: nat)
    ensures ParseBlfId("0x" + HexUpper(n)) == Some(n)
  {
    SplitConcat("0x", HexUpper(n));
    ParsePrefixedHex(n);
  }

  /** A hexadecimal ID with a letter but no `x` raises: `"1FF"` is an error here,
      where the ASC converter reads it as 511. */
  lemma BlfIdRejectsBareHex(s: string)
    requires HasHexLetter(s) && 'x' !in s
    ensures ParseBlfId(s) == None
  {
    HexPrefixHasX(s);
    DecimalRefusesHexLetters(s);
  }

  /** `"1FF"` is rejected. */
  lemma BlfIdExampleBareHex()
    ensures ParseBlfId("1FF") == None
  {
    assert IsHexLetter("1FF"[1]);
    BlfIdRejectsBareHex("1FF");
  }

  /** A separator U+001C before the ID digits raises `ValueError`. */
  lemma BlfIdExampleSeparator()
    ensures IdAt(["\U{1C}5"], 0) == Err(ValueError(0))
  {
    assert "\U{1C}5"[0] != 'x' && "\U{1C}5"[1] != 'x';
    assert !StartsWith("\U{1C}5", "0x") by {
      assert "\U{1C}5"[..2][0] == '\U{1C}';
    }
    IntSkipsLessThanStrip();
  }

  /** `"0x1FF"` is 511. */
  lemma BlfIdExamplePrefixedHex()
    ensures ParseBlfId("0x1FF") == Some(511)
  {
    HexExamples();
    BlfIdReadsPrefixedHex(511);
    assert "0x" + HexUpper(511) == "0x1FF";
  }

  /** `is_extended_id`: the ID does not fit the 11 bits of a standard frame. */
  predicate IsExtended(id: int) {
    id > 0x7FF
  }

  /** Exactly the IDs from 2048 on are extended: `2047` is not, `0x800` is. */
  lemma ExtendedBoundary(id: int)
    ensures IsExtended(id) <==> id >= 2048
    ensures !IsExtended(2047) && IsExtended(0x800)
  {
  }

  /** The fields of a frame that `csv_to_blf.py` builds from one row; FD and
      bit-rate switch are always set, so they are not stored. */
  datatype BlfFrame = BlfFrame(id: int, data: seq<int>, extended: bool)

  predicate IsByte(b: int) {
    0 <= b < 256
  }

  /** `int(row[i], 16)` or `int(row[i])` by the ID rule, with the exception
      the script would raise. */
  function IdAt(row: seq<string>, i: nat): Result<int, BlfError> {
    if i >= |row| then Err(IndexError(i))
    else match ParseBlfId(row[i])
      case Some(v) => Ok(v)
      case None => Err(ValueError(i))
  }

  /** `int(row[i])`, with the exception the script would raise. */
  function DecimalAt(row: seq<string>, i: nat): Result<int, BlfError> {
    if i >= |row| then Err(IndexError(i))
    else match ParseInt(row[i], 10)
      case Some(v) => Ok(v)
      case None => Err(ValueError(i))
  }

  predicate AllBytesIn(data: seq<int>) {
    forall k :: 0 <= k < |data| ==> IsByte(data[k])
  }

  /** One row of the loop: the ID, the timestamp, the DLC, the payload and
      `bytes(data)`. Python's `float()` grammar is not modelled: `isFloat` says
      which timestamp cells `float(row[ts_idx])` accepts. */
  function DecodeBlfRow(row: seq<string>, idIdx: nat, tsIdx: nat, lenIdx: nat, isFloat: string -> bool): (r: Result<BlfFrame, BlfError>)
    ensures r.Ok? ==> (r.value.extended <==> r.value.id >= 2048)
    ensures r.Ok? ==> AllBytesIn(r.value.data)
    ensures r.Ok? ==> idIdx < |row| && tsIdx < |row| && lenIdx < |row|
    ensures r.Ok? ==> ParseBlfId(row[idIdx]) == Some(r.value.id)
    ensures r.Ok? ==> isFloat(row[tsIdx])
    ensures r.Ok? ==> ParseInt(row[lenIdx], 10).Some?
    ensures r.Ok? ==> ReadPayload(row, lenIdx + 1, ParseInt(row[lenIdx], 10).value) == Ok(r.value.data)
  {
    var id :- IdAt(row, idIdx);
    var _ :- StampAt(row, tsIdx, isFloat);
    var dlc :- DecimalAt(row, lenIdx);
    var data :- ReadPayload(row, lenIdx + 1, dlc);
    if AllBytesIn(data) then Ok(BlfFrame(id, data, IsExtended(id))) else Err(ByteRange)
  }

  /** `float(row[i])`, with the exception the script would raise; the value
      itself is not kept. */
  function StampAt(row: seq<string>, i: nat, isFloat: string -> bool): Result<bool, BlfError> {
    if i >= |row| then Err(IndexError(i))
    else if isFloat(row[i]) then Ok(true)
    else Err(ValueError(i))
  }

  /** A row fails with the first exception the script meets: reading the ID
      cell, then the timestamp cell, then the LEN cell, then the payload, and
      last `bytes(data)` on a value outside 0..255. */
  lemma DecodeBlfRowError(row: seq<string>, idIdx: nat, tsIdx: nat, lenIdx: nat, isFloat: string -> bool, e: BlfError)
    requires DecodeBlfRow(row, idIdx, tsIdx, lenIdx, isFloat) == Err(e)
    ensures idIdx >= |row| ==> e == IndexError(idIdx)
    ensures idIdx < |row| && ParseBlfId(row[idIdx]) == None ==> e == ValueError(idIdx)
    ensures idIdx < |row| && ParseBlfId(row[idIdx]).Some? ==>
      (tsIdx >= |row| ==> e == IndexError(tsIdx)) &&
      (tsIdx < |row| && !isFloat(row[tsIdx]) ==> e == ValueError(tsIdx))
    ensures idIdx < |row| && ParseBlfId(row[idIdx]).Some? && tsIdx < |row| && isFloat(row[tsIdx]) ==>
      (lenIdx >= |row| ==> e == IndexError(lenIdx)) &&
      (lenIdx < |row| && ParseInt(row[lenIdx], 10) == None ==> e == ValueError(lenIdx))
    ensures idIdx < |row| && ParseBlfId(row[idIdx]).Some? && tsIdx < |row| && isFloat(row[tsIdx]) && lenIdx < |row| && ParseInt(row[lenIdx], 10).Some? ==>
      var payload := ReadPayload(row, lenIdx + 1, ParseInt(row[lenIdx], 10).value);
      (payload.Err? ==> e == payload.error) &&
      (payload.Ok? ==> e == ByteRange && exists k :: 0 <= k < |payload.value| && !IsByte(payload.value[k]))
  {
  }

  /** A row whose ID, timestamp, DLC and payload cells read without error, and
      whose payload values are bytes, decodes to the frame made of them. */
  lemma DecodeBlfRowOf(row: seq<string>, idIdx: nat, tsIdx: nat, lenIdx: nat, isFloat: string -> bool,
                       id: int, dlc: int, data: seq<int>)
    requires IdAt(row, idIdx) == Ok(id) && StampAt(row, tsIdx, isFloat).Ok? && DecimalAt(row, lenIdx) == Ok(dlc)
    requires ReadPayload(row, lenIdx + 1, dlc) == Ok(data) && AllBytesIn(data)
    ensures DecodeBlfRow(row, idIdx, tsIdx, lenIdx, isFloat) == Ok(BlfFrame(id, data, IsExtended(id)))
  {
  }

  /** A row as a writer of this layout produces it from a frame: the ID in
      decimal in the first cell, the timestamp in the second, the DLC in decimal in the third, then one upper-case hexadecimal cell per
      byte. */
  predicate WrittenRow(row: seq<string>, id: int, bytes: seq<int>) {
    |row| == 3 + |bytes| && row[0] == Decimal(id) && row[2] == Decimal(|bytes|) && row[3..] == HexCells(bytes)
  }

  /** A written row whose timestamp `float()` accepts reads back as the frame
      it was written from. */
  lemma BlfRowRoundTrip(row: seq<string>, id: int, bytes: seq<int>, isFloat: string -> bool)
    requires AllBytesIn(bytes) && WrittenRow(row, id, bytes) && isFloat(row[1])
    ensures DecodeBlfRow(row, 0, 1, 2, isFloat) == Ok(BlfFrame(id, bytes, IsExtended(id)))
  {
    BlfRowCells(row, id, bytes);
    DecodeBlfRowOf(row, 0, 1, 2, isFloat, id, |bytes|, bytes);
  }

  /** Each cell of a written row reads back: the ID, the DLC and the payload. */
  lemma BlfRowCells(row: seq<string>, id: int, bytes: seq<int>)
    requires WrittenRow(row, id, bytes)
    ensures IdAt(row, 0) == Ok(id) && DecimalAt(row, 2) == Ok(|bytes|)
    ensures ReadPayload(row, 3, |bytes|) == Ok(bytes)
  {
    assert row[3..3 + |bytes|] == row[3..];
    HexPayload(row, 3, bytes);
    DecimalCells(row, id, |bytes|);
  }

  /** The ID and DLC cells of a written row read back. */
  lemma DecimalCells(row: seq<string>, id: int, dlc: int)
    requires |row| >= 3 && row[0] == Decimal(id) && row[2] == Decimal(dlc)
    ensures IdAt(row, 0) == Ok(id) && DecimalAt(row, 2) == Ok(dlc)
  {
    BlfIdReadsDecimal(id);
    ParseRender(dlc, 10);
  }

  /** Hexadecimal cells written for `bytes`, `length` of them, read back as the
      bytes. */
  lemma HexPayload(row: seq<string>, start: nat, bytes: seq<int>)
    requires start + |bytes| <= |row|
    requires row[start..start + |bytes|] == HexCells(bytes)
    ensures ReadPayload(row, start, |bytes|) == Ok(bytes)
  {
    HexCellsSpec(bytes);
    forall k | 0 <= k < |bytes|
      ensures Classify(row[start + k]) == Byte(bytes[k])
    {
      assert row[start + k] == row[start..start + |bytes|][k];
      ClassifyHex(bytes[k]);
    }
    CellsPayload(row, start, bytes);
  }

  /** Cells that all hold values, as many as asked for, read back as those values. */
  lemma CellsPayload(row: seq<string>, start: nat, bytes: seq<int>)
    requires start + |bytes| <= |row|
    requires forall k :: 0 <= k < |bytes| ==> Classify(row[start + k]) == Byte(bytes[k])
    ensures ReadPayload(row, start, |bytes|) == Ok(bytes)
  {
    KindsSpec(row);
    ReadKindsRoundTrip(Kinds(row), start, |bytes|, bytes);
  }

  /** Cell `k` is byte `k` in upper-case hexadecimal. */
  lemma {:induction false} HexCellsSpec(bytes: seq<int>)
    ensures forall k :: 0 <= k < |bytes| ==> HexCells(bytes)[k] == HexUpper(bytes[k])
  {
    if |bytes| > 0 {
      HexCellsSpec(bytes[1..]);
    }
  }

  /** One upper-case hexadecimal cell per byte. */
  function HexCells(bytes: seq<int>): (r: seq<string>)
    ensures |r| == |bytes|
  {
    if |bytes| == 0 then [] else [HexUpper(bytes[0])] + HexCells(bytes[1..])
  }
}

=== FILE: picoscope_asc.dfy ===
/** The per-row conversion of `savvycan-playback/convert_picoscope_csv_to_savvycan_csv.py`:
    a PicoScope CSV row, as `csv.DictReader` hands it over, becomes one line of a
    Vector ASC (CAN FD) log.

    The row is decoded into a `Frame` (arbitration ID, DLC, payload tokens and
    the FD/BRS/ESI flags), and the frame is printed as
    `<time> 1 <ID hex>[x] Rx d <dlc> <payload>[ [FD BRS ESI]]`. Every field has a
    default: an unreadable ID is 0, an unreadable DLC is the payload token count,
    an absent flag column is false. */
module PicoscopeAsc {
  import opened Wrappers
  import opened PyText
  import opened PyInt

  // ---------------------------------------------------------------------------
  // Rows and columns

  /** A value of a `csv.DictReader` row. `NotText` is anything that is not a
      string: the `None` that pads a row shorter than the header, or the list of
      surplus cells of a row longer than the header. */
  datatype Cell = Text(s: string) | NotText

  /** A `csv.DictReader` row. The keys are the header names; the key `None` holds
      the surplus cells of a row that is longer than the header. */
  type Row = map<Option<string>, Cell>

  /** What `csv.DictReader` can yield: the key `None`, when present, holds the
      list of surplus cells, never a string. */
  predicate DictRow(row: Row) {
    None in row ==> row[None] == NotText
  }

  /** `row.get(key, default)` */
  function Get(row: Row, key: Option<string>, default: Cell): Cell {
    if key in row then row[key] else default
  }

  /** `r` is the first of `options` that occurs in `fieldnames`, or `None` when
      none of them does. */
  ghost predicate FirstPresent(fieldnames: seq<string>, options: seq<string>, r: Option<string>) {
    match r
    case None => forall j :: 0 <= j < |options| ==> options[j] !in fieldnames
    case Some(c) =>
      exists k :: 0 <= k < |options| && options[k] == c && c in fieldnames &&
        forall j :: 0 <= j < k ==> options[j] !in fieldnames
  }

  /** `find_col(fieldnames, options)`: the header spelling of a column, looked up
      alias by alias, in the order of preference. */
  function FindCol(fieldnames: seq<string>, options: seq<string>): (r: Option<string>)
    ensures FirstPresent(fieldnames, options, r)
  {
    if |options| == 0 then None
    else if options[0] in fieldnames then Some(options[0])
    else
      var r := FindCol(fieldnames, options[1..]);
      FirstPresentSkip(fieldnames, options, r);
      r
  }

  /** An absent first option does not change which option comes first. */
  lemma FirstPresentSkip(fieldnames: seq<string>, options: seq<string>, r: Option<string>)
    requires |options| > 0 && options[0] !in fieldnames
    requires FirstPresent(fieldnames, options[1..], r)
    ensures FirstPresent(fieldnames, options, r)
  {
    if r.Some? {
      var k :| 0 <= k < |options[1..]| && options[1..][k] == r.value && r.value in fieldnames &&
        forall j :: 0 <= j < k ==> options[1..][j] !in fieldnames;
      assert options[k + 1] == r.value;
      assert forall j :: 0 <= j < k + 1 ==> options[j] !in fieldnames by {
        forall j | 0 <= j < k + 1
          ensures options[j] !in fieldnames
        {
          if j > 0 {
            assert options[j] == options[1..][j - 1];
          }
        }
      }
    } else {
      forall j | 0 <= j < |options|
        ensures options[j] !in fieldnames
      {
        if j > 0 {
          assert options[j] == options[1..][j - 1];
        }
      }
    }
  }

  const TimestampAliases: seq<string> := ["Start Time", "Timestamp", "Time", "start_time"]
  const IdAliases: seq<string> := ["ID", "Id", "id"]
  const DlcAliases: seq<string> := ["DLC", "Len", "length", "dlc"]
  const DataAliases: seq<string> := ["Data", "data", "DATA"]
  const FdAliases: seq<string> := ["FDF", "EDL", "FD"]
  const BrsAliases: seq<string> := ["BRS"]
  const EsiAliases: seq<string> := ["ESI"]

  /** The header name chosen for each logical column, `None` when absent. */
  datatype Schema = Schema(
    timestamp: Option<string>,
    id: Option<string>,
    dlc: Option<string>,
    data: Option<string>,
    fd: Option<string>,
    brs: Option<string>,
    esi: Option<string>)

  /** The column lookups made once per file, before the rows are read. */
  function ResolveSchema(fieldnames: seq<string>): (s: Schema)
    ensures FirstPresent(fieldnames, TimestampAliases, s.timestamp)
    ensures FirstPresent(fieldnames, IdAliases, s.id)
    ensures FirstPresent(fieldnames, DlcAliases, s.dlc)
    ensures FirstPresent(fieldnames, DataAliases, s.data)
    ensures FirstPresent(fieldnames, FdAliases, s.fd)
    ensures FirstPresent(fieldnames, BrsAliases, s.brs)
    ensures FirstPresent(fieldnames, EsiAliases, s.esi)
  {
    Schema(
      FindCol(fieldnames, TimestampAliases),
      FindCol(fieldnames, IdAliases),
      FindCol(fieldnames, DlcAliases),
      FindCol(fieldnames, DataAliases),
      FindCol(fieldnames, FdAliases),
      FindCol(fieldnames, BrsAliases),
      FindCol(fieldnames, EsiAliases))
  }

  // ---------------------------------------------------------------------------
  // Field decoders

  /** `hexstr_to_bytes(data_str)`: the whitespace-separated tokens of the data
      cell, kept as text; a value that is not a string gives no tokens. */
  function PayloadTokens(cell: Cell): (r: seq<string>)
    ensures AllWords(r)
    ensures cell.Text? ==> r == Split(cell.s)
    ensures cell.NotText? ==> r == []
  {
    match cell
    case NotText => []
    case Text(s) =>
      SplitStrip(s);
      DropEmptyWords(Split(Strip(s)));
      DropEmpty(Split(Strip(s)))
  }

  /** The ID is read in base 16 when it starts with `0x` or holds one of the
      letters A-F in either case, and in base 10 otherwise. */
  predicate IdLooksHex(s: string) {
    StartsWith(s, "0x") || HasHexLetter(s)
  }

  /** The arbitration ID of a row; 0 when the cell is not a string or does not
      parse in the chosen base. */
  function ParseId(cell: Cell): int {
    match cell
    case NotText => 0
    case Text(s) => ParseInt(s, if IdLooksHex(s) then 16 else 10).GetOr(0)
  }

  /** The DLC of a row. A missing or empty cell gives the payload token `count`;
      a cell holding one of the letters A-F is read in base 16, any other in
      base 10; a cell that does not parse gives `count` as well. */
  function ParseDlc(cell: Cell, count: nat): (r: int)
    ensures cell.NotText? || cell == Text("") ==> r == count
    ensures cell.Text? && cell.s != "" && ParseInt(cell.s, if HasHexLetter(cell.s) then 16 else 10) == None ==>
      r == count
    ensures cell.Text? && cell.s != "" && ParseInt(cell.s, if HasHexLetter(cell.s) then 16 else 10).Some? ==>
      r == ParseInt(cell.s, if HasHexLetter(cell.s) then 16 else 10).value
  {
    match cell
    case NotText => count
    case Text(s) =>
      if s == "" then count
      else ParseInt(s, if HasHexLetter(s) then 16 else 10).GetOr(count)
  }

  /** Python's truth value of a column name: resolved and not empty. */
  predicate Truthy(col: Option<string>) {
    col.Some? && col.value != ""
  }

  /** One of the FD/BRS/ESI flags: set iff its column was resolved and the
      row's cell under it is exactly `"1"`. */
  function Flag(row: Row, col: Option<string>): (r: bool)
    ensures r <==> Truthy(col) && col in row && row[col] == Text("1")
  {
    Truthy(col) && Get(row, col, Text("0")) == Text("1")
  }

  /** The decoded row. `payload` holds every token of the data cell; `dlc` may
      be negative, or larger than the number of tokens. */
  datatype Frame = Frame(id: int, dlc: int, payload: seq<string>, fd: bool, brs: bool, esi: bool)

  /** One row of the loop body of `csv_to_asc`, up to the printing. */
  function DecodeRow(schema: Schema, row: Row): (f: Frame)
    ensures AllWords(f.payload)
    ensures !Truthy(schema.fd) ==> !f.fd
    ensures !Truthy(schema.brs) ==> !f.brs
    ensures !Truthy(schema.esi) ==> !f.esi
  {
    var payload := PayloadTokens(Get(row, schema.data, Text("")));
    Frame(
      ParseId(Get(row, schema.id, Text("0"))),
      ParseDlc(Get(row, schema.dlc, NotText), |payload|),
      payload,
      Flag(row, schema.fd),
      Flag(row, schema.brs),
      Flag(row, schema.esi))
  }

  // ---------------------------------------------------------------------------
  // Line composition

  function Min(a: int, b: int): int {
    if a < b then a else b
  }

  /** `xs[:dlc]`: the first `dlc` tokens; a negative `dlc` drops that many from
      the end, as Python's slicing does. */
  function Shown(payload: seq<string>, dlc: int): (r: seq<string>)
    ensures r <= payload
    ensures dlc >= 0 ==> |r| == Min(dlc, |payload|)
    ensures dlc < 0 ==> |payload| - |r| == Min(-dlc, |payload|)
  {
    var stop := if dlc < 0 then |payload| + dlc else dlc;
    if stop < 0 then [] else if stop > |payload| then payload else payload[..stop]
  }

  /** The names of the flags that are set, in the order FD, BRS, ESI. */
  function FlagWords(fd: bool, brs: bool, esi: bool): seq<string> {
    (if fd then ["FD"] else []) + (if brs then ["BRS"] else []) + (if esi then ["ESI"] else [])
  }

  /** `" [FD BRS ESI]"` with the flags that are set, or nothing when none is. */
  function FlagSection(words: seq<string>): string {
    if |words| == 0 then "" else " " + ("[" + Join(words) + "]")
  }

  /** The ID field: upper-case hexadecimal, with the `x` suffix that marks an
      FD frame. */
  function IdField(f: Frame): string {
    HexUpper(f.id) + (if f.fd then "x" else "")
  }

  /** The end of a frame line: the DLC in decimal, the payload tokens it lets
      through, and the flag section. */
  function DataFields(f: Frame): string {
    Decimal(f.dlc) + " " + (Join(Shown(f.payload, f.dlc)) + FlagSection(FlagWords(f.fd, f.brs, f.esi)))
  }

  /** A frame line without its newline. `stamp` is the timestamp as already
      formatted. Each single space of the layout is written as its own
      separator. */
  function LineBody(f: Frame, stamp: string): string {
    stamp + " " + ("1" + " " + (IdField(f) + " " + ("Rx" + " " + ("d" + " " + DataFields(f)))))
  }

  /** The line written for a frame. */
  function EncodeLine(f: Frame, stamp: string): string {
    LineBody(f, stamp) + "\n"
  }

  /** The line written for a row. */
  function ConvertRow(schema: Schema, row: Row, stamp: string): string {
    EncodeLine(DecodeRow(schema, row), stamp)
  }

  /** The tokens of the flag section: the flag names, the first opened and the
      last closed by a square bracket. */
  function FlagTokens(words: seq<string>): seq<string> {
    if |words| == 0 then []
    else
      var v := ["[" + words[0]] + words[1..];
      v[..|v| - 1] + [v[|v| - 1] + "]"]
  }

  // ---------------------------------------------------------------------------
  // Column resolution

  /** At most one option is the first present one, so `FirstPresent` pins the
      result of `FindCol` down completely. */
  lemma FirstPresentUnique(fieldnames: seq<string>, options: seq<string>, r1: Option<string>, r2: Option<string>)
    requires FirstPresent(fieldnames, options, r1) && FirstPresent(fieldnames, options, r2)
    ensures r1 == r2
  {
    if r1.Some? && r2.Some? {
      var k1 :| 0 <= k1 < |options| && options[k1] == r1.value && r1.value in fieldnames &&
        forall j :: 0 <= j < k1 ==> options[j] !in fieldnames;
      var k2 :| 0 <= k2 < |options| && options[k2] == r2.value && r2.value in fieldnames &&
        forall j :: 0 <= j < k2 ==> options[j] !in fieldnames;
      assert !(k1 < k2) && !(k2 < k1);
    }
  }

  /** Aliases are tried in preference order, not header order: with both
      `DATA` and `data` in the header, `data` is chosen. */
  lemma FindColPrefersAliasOrder()
    ensures FindCol(["DATA", "data"], DataAliases) == Some("data")
  {
    var h := ["DATA", "data"];
    assert "Data" != h[0] && "Data" != h[1];
    assert "data" == h[1];
  }

  /** Names are matched exactly: a `LEN` header is not the length column. */
  lemma FindColIsCaseSensitive()
    ensures FindCol(["LEN"], DlcAliases) == None
  {
    var h := ["LEN"];
    assert DlcAliases[0] != h[0] by { assert DlcAliases[0][0] != h[0][0]; }
    assert DlcAliases[1] != h[0] by { assert DlcAliases[1][1] != h[0][1]; }
    assert DlcAliases[2] != h[0] by { assert DlcAliases[2][0] != h[0][0]; }
    assert DlcAliases[3] != h[0] by { assert DlcAliases[3][0] != h[0][0]; }
  }

  // ---------------------------------------------------------------------------
  // Field decoders

  /** Tokenising keeps every non-whitespace character of the data cell, in order. */
  lemma PayloadKeepsText(s: string)
    ensures Concat(PayloadTokens(Text(s))) == RemoveSpaces(s)
  {
    SplitKeepsText(s);
  }

  /** A decimal ID, as `str(n)` prints it, reads back as `n`. */
  lemma IdReadsDecimal(n: int)
    ensures ParseId(Text(Decimal(n))) == n
  {
    RenderIsWord(n, 10);
    ParseRender(n, 10);
  }

  /** An ID written `0x` followed by upper-case hexadecimal digits reads back. */
  lemma IdReadsPrefixedHex(n: nat)
    ensures ParseId(Text("0x" + HexUpper(n))) == n
  {
    SplitConcat("0x", HexUpper(n));
    ParsePrefixedHex(n);
  }

  /** An unprefixed hexadecimal ID reads back when it holds a letter A-F. */
  lemma IdReadsHexWithLetter(n: int)
    requires HasHexLetter(HexUpper(n))
    ensures ParseId(Text(HexUpper(n))) == n
  {
    ParseRender(n, 16);
  }

  /** `"1FF"` holds a letter, so it is read in base 16. */
  lemma IdExampleHex()
    ensures ParseId(Text("1FF")) == 511
  {
    HexExamples();
    assert IsHexLetter("1FF"[1]);
    IdReadsHexWithLetter(511);
  }

  /** `"123"` is read in base 10 and printed as `7B`. */
  lemma IdExampleDecimal()
    ensures ParseId(Text("123")) == 123 && HexUpper(123) == "7B"
  {
    HexExamples();
    DecimalExamples();
    IdReadsDecimal(123);
  }

  /** Without a prefix or a letter, hexadecimal digits are read as decimal
      ones: `"10"` is ten, not sixteen. */
  lemma IdExamplePlainDigits()
    ensures ParseId(Text("10")) == 10
  {
    DecimalExamples();
    IdReadsDecimal(10);
  }

  /** A capital `0X` prefix is neither base-16 marker, base 10 rejects it, and
      the ID becomes 0. */
  lemma IdExampleCapitalPrefix()
    ensures ParseId(Text("0X10")) == 0
  {
    var z := "0X10";
    assert !IsHexLetter(z[0]) && !IsHexLetter(z[1]) && !IsHexLetter(z[2]) && !IsHexLetter(z[3]);
    assert !StartsWith(z, "0x") by {
      assert z[..2][1] == 'X';
    }
    Untrimmed(z);
    assert ParseUnsigned(z, 10) == None by {
      assert !IsDigit(z[1], 10);
    }
  }

  /** Hexadecimal digits of either case that include a letter A-F, leading
      zeros allowed, are read in base 16. */
  lemma IdReadsHexDigits(s: string)
    requires |s| > 0 && AllDigits(s, 16) && HasHexLetter(s)
    ensures ParseId(Text(s)) == DigitsValue(s, 16)
  {
    ParseDigits(s, 16);
  }

  /** Decimal digits, leading zeros allowed, are read in base 10. */
  lemma IdReadsDecimalDigits(s: string)
    requires |s| > 0 && AllDigits(s, 10)
    ensures ParseId(Text(s)) == DigitsValue(s, 10)
  {
    DecimalDigitsNotHex(s);
    ParseDigits(s, 10);
  }

  /** `0x` followed by hexadecimal digits of either case is read in base 16. */
  lemma IdReadsPrefixedDigits(d: string)
    requires |d| > 0 && AllDigits(d, 16)
    ensures ParseId(Text("0x" + d)) == DigitsValue(d, 16)
  {
    SplitConcat("0x", d);
    ParsePrefixedDigits(d);
  }

  /** A string of decimal digits has no letter A-F and no `0x` prefix. */
  lemma DecimalDigitsNotHex(s: string)
    requires AllDigits(s, 10)
    ensures !HasHexLetter(s) && !StartsWith(s, "0x")
  {
    assert forall i :: 0 <= i < |s| ==> IsDigit(s[i], 10) && !IsHexLetter(s[i]);
    if |s| >= 2 {
      assert s[..2][1] == s[1];
    }
  }

  /** The ID is the value of the cell in the base its spelling selects, or 0
      when the cell is not a string or that base does not read it. */
  lemma IdDefaultsToZero(s: string)
    ensures ParseId(NotText) == 0
    ensures ParseInt(s, if IdLooksHex(s) then 16 else 10) == None ==> ParseId(Text(s)) == 0
    ensures ParseInt(s, if IdLooksHex(s) then 16 else 10).Some? ==>
      ParseId(Text(s)) == ParseInt(s, if IdLooksHex(s) then 16 else 10).value
  {
  }

  /** Lower-case letters select base 16 as well: `"1ff"` is 511. */
  lemma IdExampleLowerHex()
    ensures ParseId(Text("1ff")) == 511
  {
    var s := "1ff";
    assert IsHexLetter(s[1]) && AllDigits(s, 16);
    assert s[..2] == "1f" && "1f"[..1] == "1" && "1"[..0] == "";
    assert DigitsValue("1", 16) == 1;
    assert DigitsValue("1f", 16) == 31;
    assert DigitsValue(s, 16) == 511;
    IdReadsHexDigits(s);
  }

  /** Without an ID column in the header, every row has ID 0; no error is
      raised. A row longer than the header also gets 0: its surplus list under
      `None` makes `int()` raise. */
  lemma IdWithoutColumn(schema: Schema, row: Row)
    requires schema.id == None && DictRow(row)
    ensures DecodeRow(schema, row).id == 0
  {
    assert NatDigits(0, 10) == "0";
    IdReadsDecimal(0);
  }

  /** A separator U+001C before the digits makes `int()` raise, though
      `strip()` would remove it: the cell `"\U{1C}5"` is the ID 0. */
  lemma IdExampleSeparator()
    ensures ParseId(Text("\U{1C}5")) == 0
  {
    var z := "\U{1C}5";
    assert !IsHexLetter(z[0]) && !IsHexLetter(z[1]);
    assert !StartsWith(z, "0x") by {
      assert z[..2][0] == '\U{1C}';
    }
    IntSkipsLessThanStrip();
  }

  /** A negative ID is read and printed with its sign: `"-5"` is printed `-5`. */
  lemma IdExampleNegative()
    ensures ParseId(Text("-5")) == -5
    ensures IdField(Frame(-5, 0, [], false, false, false)) == "-5"
  {
    NegativeRenderings();
    IdReadsDecimal(-5);
  }

  lemma NegativeRenderings()
    ensures Decimal(-5) == "-5" && HexUpper(-5) == "-5"
  {
    assert NatDigits(5, 10) == "5" && NatDigits(5, 16) == "5";
  }

  /** A decimal DLC reads back as itself, whatever the token count. */
  lemma DlcReadsDecimal(n: int, count: nat)
    ensures ParseDlc(Text(Decimal(n)), count) == n
  {
    RenderIsWord(n, 10);
    ParseRender(n, 10);
  }

  /** A hexadecimal DLC reads back when it holds a letter A-F. */
  lemma DlcReadsHexWithLetter(n: int, count: nat)
    requires HasHexLetter(HexUpper(n))
    ensures ParseDlc(Text(HexUpper(n)), count) == n
  {
    RenderIsWord(n, 16);
    ParseRender(n, 16);
  }

  /** Hexadecimal digits of either case that include a letter A-F are a DLC
      in base 16. */
  lemma DlcReadsHexDigits(s: string, count: nat)
    requires |s| > 0 && AllDigits(s, 16) && HasHexLetter(s)
    ensures ParseDlc(Text(s), count) == DigitsValue(s, 16)
  {
    ParseDigits(s, 16);
  }

  /** Decimal digits, leading zeros allowed, are a DLC in base 10. */
  lemma DlcReadsDecimalDigits(s: string, count: nat)
    requires |s| > 0 && AllDigits(s, 10)
    ensures ParseDlc(Text(s), count) == DigitsValue(s, 10)
  {
    DecimalDigitsNotHex(s);
    ParseDigits(s, 10);
  }

  /** A non-empty DLC cell is its value in the base its letters select, or the
      token count when that base does not read it. */
  lemma DlcDefaultsToCount(s: string, count: nat)
    requires s != ""
    ensures ParseInt(s, if HasHexLetter(s) then 16 else 10) == None ==> ParseDlc(Text(s), count) == count
    ensures ParseInt(s, if HasHexLetter(s) then 16 else 10).Some? ==>
      ParseDlc(Text(s), count) == ParseInt(s, if HasHexLetter(s) then 16 else 10).value
  {
  }

  /** Leading zeros do not matter: `"08"` is a DLC of 8. */
  lemma DlcExampleLeadingZero(count: nat)
    ensures ParseDlc(Text("08"), count) == 8
  {
    var s := "08";
    assert AllDigits(s, 10);
    DlcReadsDecimalDigits(s, count);
    assert s[..1] == "0" && s[..0] == "";
  }

  /** `0x` does not select base 16 for the DLC: `"0x10"` has no letter A-F,
      base 10 rejects it, and the token count is used instead. */
  lemma DlcExamplePrefixed(count: nat)
    ensures ParseDlc(Text("0x10"), count) == count
  {
    var z := "0x10";
    assert !IsHexLetter(z[0]) && !IsHexLetter(z[1]) && !IsHexLetter(z[2]) && !IsHexLetter(z[3]);
    Untrimmed(z);
    assert ParseUnsigned(z, 10) == None by {
      assert !IsDigit(z[1], 10);
    }
  }

  /** `"C"` is a hexadecimal DLC of 12, `"-1"` a decimal DLC of -1. */
  lemma DlcExamples(count: nat)
    ensures ParseDlc(Text("C"), count) == 12
    ensures ParseDlc(Text("-1"), count) == -1
  {
    HexExamples();
    DecimalExamples();
    assert IsHexLetter("C"[0]);
    DlcReadsHexWithLetter(12, count);
    DlcReadsDecimal(-1, count);
  }

  // ---------------------------------------------------------------------------
  // Line composition

  /** The flag names set, in order; an FD frame always opens with `FD`. */
  lemma FlagWordsSpec(fd: bool, brs: bool, esi: bool)
    ensures AllWords(FlagWords(fd, brs, esi))
    ensures |FlagWords(fd, brs, esi)| == (if fd then 1 else 0) + (if brs then 1 else 0) + (if esi then 1 else 0)
    ensures fd <==> |FlagWords(fd, brs, esi)| > 0 && FlagWords(fd, brs, esi)[0] == "FD"
  {
    assert IsWord("FD") && IsWord("BRS") && IsWord("ESI");
  }

  /** `Shown` is Python's `xs[:dlc]` on concrete lists. */
  lemma ShownExamples()
    ensures Shown(["DE", "AD", "BE", "EF"], 3) == ["DE", "AD", "BE"]
    ensures Shown(["01", "02"], 8) == ["01", "02"]
    ensures Shown(["01", "02", "03"], -1) == ["01", "02"]
    ensures Shown(["01", "02"], -5) == []
  {
  }

  lemma WordThenText(a: string, b: string)
    requires IsWord(a) && NoSpace(b)
    ensures IsWord(a + b)
  {
    assert forall i :: |a| <= i < |a + b| ==> (a + b)[i] == b[i - |a|];
  }

  /** The ID field is a single token. */
  lemma IdFieldIsWord(f: Frame)
    ensures IsWord(IdField(f))
  {
    RenderIsWord(f.id, 16);
    WordThenText(HexUpper(f.id), if f.fd then "x" else "");
  }

  /** Joined with single spaces, the flag tokens are the bracketed flag names. */
  lemma FlagTokensJoin(words: seq<string>)
    requires |words| > 0
    ensures Join(FlagTokens(words)) == "[" + Join(words) + "]"
  {
    var v := ["[" + words[0]] + words[1..];
    JoinPrefixFirst("[", words);
    JoinSuffixLast(v, "]");
  }

  /** Bracketing the first and last flag names keeps them tokens. */
  lemma FlagTokensWords(words: seq<string>)
    requires AllWords(words) && |words| > 0
    ensures AllWords(FlagTokens(words))
  {
    var v := ["[" + words[0]] + words[1..];
    var t := FlagTokens(words);
    WordThenText("[", words[0]);
    assert AllWords(v) by {
      assert v[0] == "[" + words[0];
      assert forall k :: 1 <= k < |v| ==> v[k] == words[k];
    }
    WordThenText(v[|v| - 1], "]");
    assert forall k :: 0 <= k < |t| - 1 ==> t[k] == v[k];
  }

  /** The bracketed flag section re-tokenises into `FlagTokens`. */
  lemma BracketTokens(words: seq<string>)
    requires AllWords(words) && |words| > 0
    ensures Split("[" + Join(words) + "]") == FlagTokens(words)
  {
    FlagTokensJoin(words);
    FlagTokensWords(words);
    SplitJoin(FlagTokens(words));
  }

  /** The flag section is a separator followed by the flag tokens, or nothing. */
  lemma PayloadThenFlags(shown: seq<string>, words: seq<string>)
    requires AllWords(shown) && AllWords(words)
    ensures Split(Join(shown) + FlagSection(words)) == shown + FlagTokens(words)
  {
    SplitJoin(shown);
    if |words| == 0 {
      assert Join(shown) + FlagSection(words) == Join(shown);
    } else {
      var b := "[" + Join(words) + "]";
      Assoc(Join(shown), " ", b);
      SplitAround(Join(shown), ' ', b);
      BracketTokens(words);
    }
  }

  lemma ShownWords(payload: seq<string>, dlc: int)
    requires AllWords(payload)
    ensures AllWords(Shown(payload, dlc))
  {
    var shown := Shown(payload, dlc);
    assert forall k :: 0 <= k < |shown| ==> shown[k] == payload[k];
  }

  /** The DLC, the payload shown and the flags re-tokenise field by field. */
  lemma DataFieldsTokens(f: Frame)
    requires AllWords(f.payload)
    ensures Split(DataFields(f)) ==
      [Decimal(f.dlc)] + (Shown(f.payload, f.dlc) + FlagTokens(FlagWords(f.fd, f.brs, f.esi)))
  {
    var shown := Shown(f.payload, f.dlc);
    var words := FlagWords(f.fd, f.brs, f.esi);
    ShownWords(f.payload, f.dlc);
    FlagWordsSpec(f.fd, f.brs, f.esi);
    PayloadThenFlags(shown, words);
    RenderIsWord(f.dlc, 10);
    SplitCons(Decimal(f.dlc), Join(shown) + FlagSection(words));
  }

  /** The tokens of a frame line: the timestamp, channel `1`, the ID field,
      `Rx`, `d`, the DLC, the payload tokens the DLC lets through and the
      flag tokens, each field one token. */
  lemma LineTokens(f: Frame, stamp: string)
    requires IsWord(stamp) && AllWords(f.payload)
    ensures Split(LineBody(f, stamp)) ==
      [stamp, "1", IdField(f), "Rx", "d", Decimal(f.dlc)] +
      (Shown(f.payload, f.dlc) + FlagTokens(FlagWords(f.fd, f.brs, f.esi)))
  {
    var t4 := "d" + " " + DataFields(f);
    var t3 := "Rx" + " " + t4;
    var t2 := IdField(f) + " " + t3;
    var t1 := "1" + " " + t2;
    DataFieldsTokens(f);
    assert IsWord("d") && IsWord("Rx") && IsWord("1");
    SplitCons("d", DataFields(f));
    SplitCons("Rx", t4);
    IdFieldIsWord(f);
    SplitCons(IdField(f), t3);
    SplitCons("1", t2);
    SplitCons(stamp, t1);
    SixFields(stamp, "1", IdField(f), "Rx", "d", Decimal(f.dlc), Shown(f.payload, f.dlc), FlagTokens(FlagWords(f.fd, f.brs, f.esi)));
  }

  lemma SixFields(a: string, b: string, c: string, d: string, e: string, g: string, xs: seq<string>, ys: seq<string>)
    ensures [a] + ([b] + ([c] + ([d] + ([e] + ([g] + (xs + ys)))))) == [a, b, c, d, e, g] + (xs + ys)
  {
  }

  lemma NoNewlineConcat(a: string, b: string)
    requires NoNewline(a) && NoNewline(b)
    ensures NoNewline(a + b)
  {
    assert forall i :: |a| <= i < |a + b| ==> (a + b)[i] == b[i - |a|];
  }

  lemma WordNoNewline(w: string)
    requires NoSpace(w)
    ensures NoNewline(w)
  {
    assert forall i :: 0 <= i < |w| ==> !IsSpace(w[i]);
  }

  /** `w + " " + t` keeps `t` free of newlines when `w` is. */
  lemma FieldNoNewline(w: string, t: string)
    requires NoSpace(w) && NoNewline(t)
    ensures NoNewline(w + " " + t)
  {
    WordNoNewline(w);
    NoNewlineConcat(w, " ");
    NoNewlineConcat(w + " ", t);
  }

  lemma DataFieldsNoNewline(f: Frame)
    requires AllWords(f.payload)
    ensures NoNewline(DataFields(f))
  {
    var shown := Shown(f.payload, f.dlc);
    var words := FlagWords(f.fd, f.brs, f.esi);
    ShownWords(f.payload, f.dlc);
    FlagWordsSpec(f.fd, f.brs, f.esi);
    JoinNoNewline(shown);
    JoinNoNewline(words);
    assert NoNewline(FlagSection(words)) by {
      if |words| > 0 {
        NoNewlineConcat("[", Join(words));
        NoNewlineConcat("[" + Join(words), "]");
        NoNewlineConcat(" ", "[" + Join(words) + "]");
      }
    }
    NoNewlineConcat(Join(shown), FlagSection(words));
    RenderIsWord(f.dlc, 10);
    FieldNoNewline(Decimal(f.dlc), Join(shown) + FlagSection(words));
  }

  /** Every frame is written as exactly one line: the newline comes last and
      nowhere else, provided the timestamp holds no newline. */
  lemma LineIsOneLine(f: Frame, stamp: string)
    requires IsWord(stamp) && AllWords(f.payload)
    ensures |EncodeLine(f, stamp)| > 0 && EncodeLine(f, stamp)[|EncodeLine(f, stamp)| - 1] == '\n'
    ensures forall i :: 0 <= i < |EncodeLine(f, stamp)| - 1 ==> EncodeLine(f, stamp)[i] != '\n'
  {
    DataFieldsNoNewline(f);
    var t4 := "d" + " " + DataFields(f);
    var t3 := "Rx" + " " + t4;
    var t2 := IdField(f) + " " + t3;
    assert IsWord("d") && IsWord("Rx") && IsWord("1");
    FieldNoNewline("d", DataFields(f));
    FieldNoNewline("Rx", t4);
    IdFieldIsWord(f);
    FieldNoNewline(IdField(f), t3);
    FieldNoNewline("1", t2);
    FieldNoNewline(stamp, "1" + " " + t2);
    var body := LineBody(f, stamp);
    assert forall i :: 0 <= i < |body| ==> (body + "\n")[i] == body[i];
  }
}

=== FILE: py_int.dfy ===
/** Python's `int(s)` / `int(s, 16)` and the renderings `str(n)` / `f"{n:X}"`.

    The parser is an abstraction of Python's: it skips surrounding whitespace
    (`str.isspace()` less the separators U+001C..U+001F, which `int()` rejects),
    accepts one optional sign, accepts a `0x`/`0X` prefix only in base 16, and
    then needs one or more ASCII digits of the base. Python additionally accepts
    underscores between digits and non-ASCII decimal digits; neither is modelled.
    Where Python raises `ValueError`, the parser yields `None`. */
module PyInt {
  import opened Wrappers
  import opened PyText

  type Base = b: nat | b == 10 || b == 16 witness 10

  /** Value of a hexadecimal digit in either case; 16 for any other character. */
  function DigitValue(c: char): (d: nat)
    ensures d <= 16
  {
    if '0' <= c <= '9' then c as int - '0' as int
    else if 'a' <= c <= 'f' then c as int - 'a' as int + 10
    else if 'A' <= c <= 'F' then c as int - 'A' as int + 10
    else 16
  }

  predicate IsDigit(c: char, base: Base) {
    DigitValue(c) < base
  }

  predicate AllDigits(s: string, base: Base) {
    forall i :: 0 <= i < |s| ==> IsDigit(s[i], base)
  }

  /** The letters Python's `any(c in s for c in 'ABCDEFabcdef')` looks for. */
  predicate IsHexLetter(c: char) {
    'A' <= c <= 'F' || 'a' <= c <= 'f'
  }

  predicate HasHexLetter(s: string) {
    exists i :: 0 <= i < |s| && IsHexLetter(s[i])
  }

  /** The characters `f"{n:X}"` and `str(n)` are made of. */
  predicate IsUpperDigit(c: char) {
    '0' <= c <= '9' || 'A' <= c <= 'F'
  }

  /** Positional value of a digit string, most significant digit first. */
  function DigitsValue(s: string, base: Base): nat
    requires AllDigits(s, base)
  {
    if |s| == 0 then 0
    else DigitsValue(s[..|s| - 1], base) * base + DigitValue(s[|s| - 1])
  }

  /** The upper-case digit character of value `d`. */
  function DigitChar(d: nat): (c: char)
    requires d < 16
    ensures DigitValue(c) == d && IsUpperDigit(c)
  {
    if d < 10 then ('0' as int + d) as char else ('A' as int + d - 10) as char
  }

  /** Digits of `n` in `base`, upper case, without leading zeros. */
  function NatDigits(n: nat, base: Base): (r: string)
    ensures |r| > 0 && AllDigits(r, base)
    ensures DigitsValue(r, base) == n
    ensures r[0] == '0' ==> n == 0
    ensures forall i :: 0 <= i < |r| ==> IsUpperDigit(r[i])
    decreases n
  {
    if n < base then [DigitChar(n)]
    else
      var r := NatDigits(n / base, base) + [DigitChar(n % base)];
      assert r[..|r| - 1] == NatDigits(n / base, base);
      r
  }

  /** `str(n)` for `base == 10`, `f"{n:X}"` for `base == 16`. */
  function Render(n: int, base: Base): string {
    if n < 0 then "-" + NatDigits(-n, base) else NatDigits(n, base)
  }

  /** `f"{n:X}"` */
  function HexUpper(n: int): string {
    Render(n, 16)
  }

  /** `str(n)`, also what `f"{n}"` prints. */
  function Decimal(n: int): string {
    Render(n, 10)
  }

  predicate HasHexPrefix(u: string) {
    |u| >= 2 && u[0] == '0' && (u[1] == 'x' || u[1] == 'X')
  }

  /** The whitespace `int()` skips around a numeral. Below U+007F it tests the
      C-locale set (tab to carriage return, and space), so the separators
      U+001C..U+001F, which `str.isspace()` counts, are not skipped; above it,
      every `str.isspace()` code point is. */
  predicate IsIntSpace(c: char) {
    IsSpace(c) && !('\U{1C}' <= c <= '\U{1F}')
  }

  function IntTrimLeft(s: string): (r: string)
    ensures |r| <= |s|
  {
    if |s| > 0 && IsIntSpace(s[0]) then IntTrimLeft(s[1..]) else s
  }

  function IntTrimRight(s: string): (r: string)
    ensures |r| <= |s|
  {
    if |s| > 0 && IsIntSpace(s[|s| - 1]) then IntTrimRight(s[..|s| - 1]) else s
  }

  /** The numeral `int()` reads: `s` without its `int()` whitespace margins. */
  function IntStrip(s: string): string {
    IntTrimRight(IntTrimLeft(s))
  }

  /** `int(s, base)`, with `None` where Python raises `ValueError`. */
  function ParseInt(s: string, base: Base): Option<int> {
    ParseSigned(IntStrip(s), base)
  }

  /** An optional sign followed by an unsigned numeral. */
  function ParseSigned(t: string, base: Base): Option<int> {
    if |t| > 0 && (t[0] == '-' || t[0] == '+') then
      match ParseUnsigned(t[1..], base)
      case Some(v) =>
        var w: int := v;
        Some(if t[0] == '-' then -w else w)
      case None => None
    else
      ParseUnsigned(t, base)
  }

  /** One or more digits of `base`, after a `0x`/`0X` prefix in base 16. */
  function ParseUnsigned(u: string, base: Base): Option<nat> {
    var digits := if base == 16 && HasHexPrefix(u) then u[2..] else u;
    if |digits| > 0 && AllDigits(digits, base) then Some(DigitsValue(digits, base)) else None
  }

  // ---------------------------------------------------------------------------
  // Properties

  /** A rendering is one non-empty token: no whitespace, no newline; only the
      hexadecimal rendering may hold a letter, and it never starts with `0x`. */
  lemma RenderIsWord(n: int, base: Base)
    ensures IsWord(Render(n, base)) && NoNewline(Render(n, base))
    ensures HasHexLetter(Render(n, base)) ==> base == 16
    ensures !StartsWith(Render(n, base), "0x")
  {
    RenderChars(n, base);
    CharsAreWord(Render(n, base));
    RenderLetters(n, base);
    RenderNoPrefix(n, base);
  }

  /** Minus signs and upper-case digits make one token without a newline. */
  lemma CharsAreWord(r: string)
    requires |r| > 0
    requires forall i :: 0 <= i < |r| ==> r[i] == '-' || IsUpperDigit(r[i])
    ensures IsWord(r) && NoNewline(r)
  {
  }

  lemma RenderLetters(n: int, base: Base)
    ensures HasHexLetter(Render(n, base)) ==> base == 16
  {
    var r := Render(n, base);
    RenderChars(n, base);
    if HasHexLetter(r) {
      var i :| 0 <= i < |r| && IsHexLetter(r[i]);
      assert base == 16;
    }
  }

  lemma RenderNoPrefix(n: int, base: Base)
    ensures !StartsWith(Render(n, base), "0x")
  {
    var r := Render(n, base);
    RenderChars(n, base);
    if |r| >= 2 {
      assert r[..2][1] == r[1];
    }
  }

  /** Each character of a rendering is a leading minus sign or an upper-case
      digit of the base. */
  lemma RenderChars(n: int, base: Base)
    ensures |Render(n, base)| > 0
    ensures forall i :: 0 <= i < |Render(n, base)| ==>
      (i == 0 && Render(n, base)[i] == '-') || (IsUpperDigit(Render(n, base)[i]) && IsDigit(Render(n, base)[i], base))
  {
    var d := NatDigits(if n < 0 then -n else n, base);
    if n < 0 {
      var r := "-" + d;
      forall i | 1 <= i < |r|
        ensures IsUpperDigit(r[i]) && IsDigit(r[i], base)
      {
        assert r[i] == d[i - 1];
      }
    }
  }

  /** Reading back what `Render` prints gives the number: `int(str(n)) == n` and
      `int(f"{n:X}", 16) == n`. */
  lemma ParseRender(n: int, base: Base)
    ensures ParseInt(Render(n, base), base) == Some(n)
  {
    var d := NatDigits(if n < 0 then -n else n, base);
    if n < 0 {
      ParseNegativeDigits(d, base);
    } else {
      ParseDigits(d, base);
    }
  }

  /** A string that neither starts nor ends with whitespace is its own `strip()`
      and its own `int()` numeral. */
  lemma Untrimmed(s: string)
    requires s == [] || (!IsSpace(s[0]) && !IsSpace(s[|s| - 1]))
    ensures Strip(s) == s && IntStrip(s) == s
  {
    StripUntrimmed(s);
  }

  /** A string of digits of the base, in either case and with any leading
      zeros, parses to its positional value. */
  lemma ParseDigits(d: string, base: Base)
    requires |d| > 0 && AllDigits(d, base)
    ensures ParseInt(d, base) == Some(DigitsValue(d, base))
  {
    assert IsDigit(d[0], base) && IsDigit(d[|d| - 1], base);
    Untrimmed(d);
    ParseDigitString(d, base);
  }

  /** A minus sign before upper-case digits negates their value. */
  lemma ParseNegativeDigits(d: string, base: Base)
    requires |d| > 0 && AllDigits(d, base)
    requires forall i :: 0 <= i < |d| ==> IsUpperDigit(d[i])
    ensures ParseInt("-" + d, base) == Some(-(DigitsValue(d, base) as int))
  {
    NegativeUnstripped(d, base);
    NegativeSigned(d, base);
  }

  lemma NegativeUnstripped(d: string, base: Base)
    requires |d| > 0 && IsUpperDigit(d[|d| - 1])
    ensures IntStrip("-" + d) == "-" + d
  {
    var t := "-" + d;
    assert t[|t| - 1] == d[|d| - 1];
    Untrimmed(t);
  }

  lemma NegativeSigned(d: string, base: Base)
    requires |d| > 0 && AllDigits(d, base)
    requires forall i :: 0 <= i < |d| ==> IsUpperDigit(d[i])
    ensures ParseSigned("-" + d, base) == Some(-(DigitsValue(d, base) as int))
  {
    var t := "-" + d;
    SplitConcat("-", d);
    assert t[0] == '-' && t[1..] == d;
    ParseDigitString(d, base);
  }

  /** A string of digits of the base is an unsigned numeral of its positional
      value: a digit is never a sign, and never the `x` of a prefix. */
  lemma ParseDigitString(d: string, base: Base)
    requires |d| > 0 && AllDigits(d, base)
    ensures ParseUnsigned(d, base) == Some(DigitsValue(d, base))
  {
    if |d| >= 2 {
      assert IsDigit(d[1], base);
    }
  }

  /** A `0x`-prefixed upper-case rendering reads back in base 16. */
  lemma ParsePrefixedHex(n: nat)
    ensures ParseInt("0x" + HexUpper(n), 16) == Some(n)
  {
    ParsePrefixedDigits(NatDigits(n, 16));
  }

  /** `0x` followed by hexadecimal digits of either case, leading zeros
      allowed, reads in base 16 as the value of the digits. */
  lemma ParsePrefixedDigits(d: string)
    requires |d| > 0 && AllDigits(d, 16)
    ensures ParseInt("0x" + d, 16) == Some(DigitsValue(d, 16))
  {
    var s := "0x" + d;
    SplitConcat("0x", d);
    assert IsDigit(d[|d| - 1], 16) && s[|s| - 1] == d[|d| - 1];
    Untrimmed(s);
    assert HasHexPrefix(s) && s[2..] == d;
  }

  /** The digits of a number from the base on: those of its quotient, then the
      digit of its remainder. */
  lemma NatDigitsStep(n: nat, base: Base)
    requires n >= base
    ensures NatDigits(n, base) == NatDigits(n / base, base) + [DigitChar(n % base)]
  {
  }

  /** Concrete renderings: `f"{511:X}"`, `f"{123:X}"`, `f"{12:X}"`. */
  lemma HexExamples()
    ensures HexUpper(511) == "1FF" && HexUpper(123) == "7B" && HexUpper(12) == "C"
  {
    assert NatDigits(1, 16) == "1" && NatDigits(7, 16) == "7" && NatDigits(12, 16) == "C";
    NatDigitsStep(31, 16);
    NatDigitsStep(511, 16);
    NatDigitsStep(123, 16);
  }

  /** Concrete renderings: `str(123)`, `str(10)`, `str(-1)`. */
  lemma DecimalExamples()
    ensures Decimal(123) == "123" && Decimal(10) == "10" && Decimal(-1) == "-1"
  {
    assert NatDigits(1, 10) == "1" && NatDigits(2, 10) == "2";
    NatDigitsStep(10, 10);
    NatDigitsStep(12, 10);
    NatDigitsStep(123, 10);
  }

  /** Base 10 refuses a string holding any of the letters A-F: such a letter is
      neither whitespace, nor a sign, nor a decimal digit. */
  lemma DecimalRefusesHexLetters(s: string)
    requires HasHexLetter(s)
    ensures ParseInt(s, 10) == None
  {
    IntTrimLeftLetter(s);
    IntTrimRightLetter(IntTrimLeft(s));
    var t := IntStrip(s);
    var m :| 0 <= m < |t| && IsHexLetter(t[m]);
    SignedRefusesLetter(t, m);
  }

  /** Trimming `int()` whitespace keeps every letter A-F. */
  lemma {:induction false} IntTrimLeftLetter(s: string)
    requires HasHexLetter(s)
    ensures HasHexLetter(IntTrimLeft(s))
  {
    if |s| > 0 && IsIntSpace(s[0]) {
      var k :| 0 <= k < |s| && IsHexLetter(s[k]);
      assert k > 0 && s[1..][k - 1] == s[k];
      IntTrimLeftLetter(s[1..]);
    }
  }

  lemma {:induction false} IntTrimRightLetter(s: string)
    requires HasHexLetter(s)
    ensures HasHexLetter(IntTrimRight(s))
  {
    if |s| > 0 && IsIntSpace(s[|s| - 1]) {
      var k :| 0 <= k < |s| && IsHexLetter(s[k]);
      assert k < |s| - 1 && s[..|s| - 1][k] == s[k];
      IntTrimRightLetter(s[..|s| - 1]);
    }
  }

  /** `int()` skips less whitespace than `strip()`: the separator U+001C is
      stripped by `strip()` but makes `int()` raise, while a no-break space
      (U+00A0) is skipped by both. */
  lemma IntSkipsLessThanStrip()
    ensures Strip("\U{1C}5") == "5" && ParseInt("\U{1C}5", 10) == None
    ensures ParseInt("\U{A0}5", 10) == Some(5)
  {
    assert IntStrip("\U{1C}5") == "\U{1C}5";
    assert !IsDigit('\U{1C}', 10);
    assert IntStrip("\U{A0}5") == "5";
    ParseDigits("5", 10);
  }

  lemma SignedRefusesLetter(t: string, m: int)
    requires 0 <= m < |t| && IsHexLetter(t[m])
    ensures ParseSigned(t, 10) == None
  {
    if t[0] == '-' || t[0] == '+' {
      assert m >= 1 && t[1..][m - 1] == t[m];
      UnsignedRefusesLetter(t[1..], m - 1);
    } else {
      UnsignedRefusesLetter(t, m);
    }
  }

  lemma UnsignedRefusesLetter(u: string, m: int)
    requires 0 <= m < |u| && IsHexLetter(u[m])
    ensures ParseUnsigned(u, 10) == None
  {
    assert !IsDigit(u[m], 10);
  }
}

=== FILE: py_text.dfy ===
/** The pieces of Python's `str` type the converters rely on: whitespace
    classification, `strip()`, the argument-less `split()` and `' '.join(...)`. */
module PyText {

  /** Python's `str.isspace()`: the code points `split()` and `strip()` treat
      as whitespace (U+0009..U+000D, U+001C..U+0020, U+0085, U+00A0,
      U+1680, U+2000..U+200A, U+2028, U+2029, U+202F, U+205F, U+3000). */
  predicate IsSpace(c: char) {
    || '\t' <= c <= '\r'
    || '\U{1C}' <= c <= ' '
    || c == '\U{85}' || c == '\U{A0}' || c == '\U{1680}'
    || '\U{2000}' <= c <= '\U{200A}'
    || c == '\U{2028}' || c == '\U{2029}' || c == '\U{202F}'
    || c == '\U{205F}' || c == '\U{3000}'
  }

  predicate NoSpace(s: string) {
    forall i :: 0 <= i < |s| ==> !IsSpace(s[i])
  }

  predicate AllSpace(s: string) {
    forall i :: 0 <= i < |s| ==> IsSpace(s[i])
  }

  /** A token as `split()` produces it: non-empty and free of whitespace. */
  predicate IsWord(s: string) {
    |s| > 0 && NoSpace(s)
  }

  predicate AllWords(ws: seq<string>) {
    forall k :: 0 <= k < |ws| ==> IsWord(ws[k])
  }

  predicate NoNewline(s: string) {
    forall i :: 0 <= i < |s| ==> s[i] != '\n'
  }

  /** `s.lstrip()` */
  function TrimLeft(s: string): (r: string)
    ensures |r| <= |s|
  {
    if |s| > 0 && IsSpace(s[0]) then TrimLeft(s[1..]) else s
  }

  /** `s.rstrip()` */
  function TrimRight(s: string): (r: string)
    ensures |r| <= |s|
  {
    if |s| > 0 && IsSpace(s[|s| - 1]) then TrimRight(s[..|s| - 1]) else s
  }

  /** `s.strip()` */
  function Strip(s: string): string {
    TrimRight(TrimLeft(s))
  }

  /** Number of whitespace characters `strip()` cuts from the front of `s`. */
  function StripStart(s: string): nat {
    |s| - |TrimLeft(s)|
  }

  /** Length of the run of non-whitespace characters that starts `s`. */
  function WordLength(s: string): (n: nat)
    ensures n <= |s|
    ensures |s| > 0 && !IsSpace(s[0]) ==> n > 0
  {
    if |s| == 0 || IsSpace(s[0]) then 0 else 1 + WordLength(s[1..])
  }

  /** `s.split()`: the maximal runs of non-whitespace characters, in order. */
  function Split(s: string): (r: seq<string>)
    ensures AllWords(r)
    decreases |s|
  {
    if |s| == 0 then []
    else if IsSpace(s[0]) then Split(s[1..])
    else
      var n := WordLength(s);
      WordLengthSpec(s);
      [s[..n]] + Split(s[n..])
  }

  /** `' '.join(ws)` */
  function Join(ws: seq<string>): string {
    if |ws| == 0 then ""
    else if |ws| == 1 then ws[0]
    else ws[0] + " " + Join(ws[1..])
  }

  /** `''.join(ws)` */
  function Concat(ws: seq<string>): string {
    if |ws| == 0 then "" else ws[0] + Concat(ws[1..])
  }

  /** The non-whitespace characters of `s`, in order. */
  function RemoveSpaces(s: string): string {
    if |s| == 0 then ""
    else (if IsSpace(s[0]) then "" else [s[0]]) + RemoveSpaces(s[1..])
  }

  /** `[b for b in ws if b]` */
  function DropEmpty(ws: seq<string>): (r: seq<string>)
    ensures forall k :: 0 <= k < |r| ==> r[k] != ""
  {
    if |ws| == 0 then []
    else (if ws[0] == "" then [] else [ws[0]]) + DropEmpty(ws[1..])
  }

  /** `s.startswith(prefix)` */
  function StartsWith(s: string, prefix: string): bool {
    |prefix| <= |s| && s[..|prefix|] == prefix
  }

  // ---------------------------------------------------------------------------
  // Sequence bookkeeping, stated once so that proofs can cite it

  lemma Assoc(a: string, b: string, c: string)
    ensures a + (b + c) == (a + b) + c
  {
  }

  lemma SplitConcat(a: string, b: string)
    ensures (a + b)[..|a|] == a && (a + b)[|a|..] == b
  {
  }

  // ---------------------------------------------------------------------------
  // strip

  lemma {:induction false} TrimLeftSpec(s: string)
    ensures TrimLeft(s) == s[StripStart(s)..]
    ensures forall k :: 0 <= k < StripStart(s) ==> IsSpace(s[k])
    ensures TrimLeft(s) == [] || !IsSpace(TrimLeft(s)[0])
  {
    if |s| > 0 && IsSpace(s[0]) {
      TrimLeftSpec(s[1..]);
      var r := TrimLeft(s);
      assert r == TrimLeft(s[1..]);
      assert s[|s| - |r|..] == s[1..][|s| - 1 - |r|..];
      forall k | 0 <= k < |s| - |r|
        ensures IsSpace(s[k])
      {
        if k > 0 {
          assert s[k] == s[1..][k - 1];
        }
      }
    }
  }

  lemma {:induction false} TrimRightSpec(s: string)
    ensures TrimRight(s) == s[..|TrimRight(s)|]
    ensures forall k :: |TrimRight(s)| <= k < |s| ==> IsSpace(s[k])
    ensures TrimRight(s) == [] || !IsSpace(TrimRight(s)[|TrimRight(s)| - 1])
  {
    if |s| > 0 && IsSpace(s[|s| - 1]) {
      var t := s[..|s| - 1];
      TrimRightSpec(t);
      var r := TrimRight(s);
      assert r == TrimRight(t);
      assert t[..|r|] == s[..|r|];
      forall k | |r| <= k < |s|
        ensures IsSpace(s[k])
      {
        if k < |s| - 1 {
          assert s[k] == t[k];
        }
      }
    }
  }

  /** `strip()` cuts whitespace margins and nothing else: its result is the
      slice of `s` between a whitespace-only head and a whitespace-only tail, and
      neither starts nor ends with whitespace. */
  lemma StripSpec(s: string)
    ensures StripStart(s) + |Strip(s)| <= |s|
    ensures Strip(s) == s[StripStart(s)..StripStart(s) + |Strip(s)|]
    ensures forall k :: 0 <= k < StripStart(s) ==> IsSpace(s[k])
    ensures forall k :: StripStart(s) + |Strip(s)| <= k < |s| ==> IsSpace(s[k])
    ensures Strip(s) == [] || (!IsSpace(Strip(s)[0]) && !IsSpace(Strip(s)[|Strip(s)| - 1]))
  {
    TrimLeftSpec(s);
    StripSlice(s);
    StripTail(s);
    StripEnds(s);
  }

  lemma StripSlice(s: string)
    ensures StripStart(s) + |Strip(s)| <= |s|
    ensures Strip(s) == s[StripStart(s)..StripStart(s) + |Strip(s)|]
  {
    var t := TrimLeft(s);
    var r := Strip(s);
    var i := StripStart(s);
    TrimLeftSpec(s);
    TrimRightSpec(t);
    assert t[..|r|] == s[i..i + |r|];
  }

  lemma StripTail(s: string)
    ensures forall k :: StripStart(s) + |Strip(s)| <= k < |s| ==> IsSpace(s[k])
  {
    var t := TrimLeft(s);
    var r := Strip(s);
    var i := StripStart(s);
    TrimLeftSpec(s);
    TrimRightSpec(t);
    forall k | i + |r| <= k < |s|
      ensures IsSpace(s[k])
    {
      assert s[k] == t[k - i];
    }
  }

  lemma StripEnds(s: string)
    ensures Strip(s) == [] || (!IsSpace(Strip(s)[0]) && !IsSpace(Strip(s)[|Strip(s)| - 1]))
  {
    var t := TrimLeft(s);
    var r := Strip(s);
    TrimLeftSpec(s);
    TrimRightSpec(t);
    if r != [] {
      assert r[0] == t[0];
    }
  }

  /** A string without whitespace margins is its own `strip()`. */
  lemma StripUntrimmed(s: string)
    requires s == [] || (!IsSpace(s[0]) && !IsSpace(s[|s| - 1]))
    ensures Strip(s) == s
  {
  }

  /** `strip()` keeps every non-whitespace character of its input. */
  lemma StripKeeps(s: string, k: int)
    requires 0 <= k < |s| && !IsSpace(s[k])
    ensures StripStart(s) <= k < StripStart(s) + |Strip(s)|
    ensures Strip(s)[k - StripStart(s)] == s[k]
  {
    StripSpec(s);
  }

  // ---------------------------------------------------------------------------
  // split

  lemma {:induction false} WordLengthSpec(s: string)
    ensures forall i :: 0 <= i < WordLength(s) ==> !IsSpace(s[i])
    ensures WordLength(s) == |s| || IsSpace(s[WordLength(s)])
  {
    if |s| > 0 && !IsSpace(s[0]) {
      WordLengthSpec(s[1..]);
      forall i | 1 <= i < WordLength(s)
        ensures !IsSpace(s[i])
      {
        assert s[i] == s[1..][i - 1];
      }
    }
  }

  lemma SplitWord(w: string)
    requires IsWord(w)
    ensures Split(w) == [w]
  {
    WordLengthSpec(w);
    var n := WordLength(w);
    assert n == |w|;
    assert w[..n] == w && w[n..] == [];
  }

  lemma {:induction false} SplitAllSpace(s: string)
    requires AllSpace(s)
    ensures Split(s) == []
    decreases |s|
  {
    if |s| > 0 {
      assert IsSpace(s[0]);
      SplitAllSpace(s[1..]);
    }
  }

  /** The first word of `a + b` is the first word of `a` when it ends inside `a`
      or `b` starts with whitespace. */
  lemma {:induction false} WordLengthAppend(a: string, b: string)
    requires WordLength(a) < |a| || (|b| > 0 && IsSpace(b[0]))
    ensures WordLength(a + b) == WordLength(a)
    decreases |a|
  {
    if |a| > 0 && !IsSpace(a[0]) {
      assert (a + b)[0] == a[0];
      assert (a + b)[1..] == a[1..] + b;
      WordLengthAppend(a[1..], b);
    } else if |a| == 0 {
      assert a + b == b;
    } else {
      assert (a + b)[0] == a[0];
    }
  }

  /** `split()` cuts at every whitespace character: what lies on either side of
      one is split independently. */
  lemma {:induction false} SplitAround(a: string, c: char, b: string)
    requires IsSpace(c)
    ensures Split(a + [c] + b) == Split(a) + Split(b)
    decreases |a|
  {
    var s := a + [c] + b;
    if |a| == 0 {
      assert s == [c] + b;
      assert s[1..] == b;
    } else if IsSpace(a[0]) {
      SplitAroundSpace(a, c, b);
    } else {
      SplitAroundWord(a, c, b);
    }
  }

  lemma {:induction false} SplitAroundSpace(a: string, c: char, b: string)
    requires IsSpace(c) && |a| > 0 && IsSpace(a[0])
    ensures Split(a + [c] + b) == Split(a) + Split(b)
    decreases |a|, 0
  {
    var s := a + [c] + b;
    assert s[0] == a[0];
    assert s[1..] == a[1..] + [c] + b;
    SplitAround(a[1..], c, b);
  }

  lemma {:induction false} SplitAroundWord(a: string, c: char, b: string)
    requires IsSpace(c) && |a| > 0 && !IsSpace(a[0])
    ensures Split(a + [c] + b) == Split(a) + Split(b)
    decreases |a|, 0
  {
    var s := a + [c] + b;
    var n := WordLength(a);
    Assoc(a, [c], b);
    WordLengthAppend(a, [c] + b);
    assert s[0] == a[0];
    assert s[..n] == a[..n];
    assert s[n..] == a[n..] + [c] + b;
    SplitAround(a[n..], c, b);
    assert Split(s) == [a[..n]] + Split(s[n..]);
  }

  /** Splitting on whitespace after a word yields that word first. */
  lemma SplitCons(w: string, b: string)
    requires IsWord(w)
    ensures Split(w + " " + b) == [w] + Split(b)
  {
    SplitAround(w, ' ', b);
    SplitWord(w);
  }

  /** Leading whitespace does not change the tokens. */
  lemma {:induction false} SplitSpacePrefix(p: string, x: string)
    requires AllSpace(p)
    ensures Split(p + x) == Split(x)
    decreases |p|
  {
    if |p| > 0 {
      assert IsSpace(p[0]) && (p + x)[0] == p[0];
      assert (p + x)[1..] == p[1..] + x;
      SplitSpacePrefix(p[1..], x);
    } else {
      assert p + x == x;
    }
  }

  /** Trailing whitespace does not change the tokens. */
  lemma SplitSpaceSuffix(x: string, p: string)
    requires AllSpace(p)
    ensures Split(x + p) == Split(x)
  {
    if |p| > 0 {
      assert IsSpace(p[0]);
      assert x + p == x + [p[0]] + p[1..];
      SplitAround(x, p[0], p[1..]);
      SplitAllSpace(p[1..]);
      assert Split(x) + [] == Split(x);
    } else {
      assert x + p == x;
    }
  }

  /** `s.strip().split()` tokenises exactly as `s.split()`. */
  lemma SplitStrip(s: string)
    ensures Split(Strip(s)) == Split(s)
  {
    var p, q := StripMargins(s);
    SplitBetweenSpace(p, Strip(s), q);
  }

  /** A string is its `strip()` between whitespace margins. */
  lemma StripMargins(s: string) returns (p: string, q: string)
    ensures AllSpace(p) && AllSpace(q) && s == p + (Strip(s) + q)
  {
    var i := StripStart(s);
    var j := i + |Strip(s)|;
    StripSlice(s);
    assert AllSpace(s[..i]) by {
      TrimLeftSpec(s);
      AllSpaceSlice(s, 0, i);
      assert s[0..i] == s[..i];
    }
    assert AllSpace(s[j..]) by {
      StripTail(s);
      AllSpaceSlice(s, j, |s|);
    }
    ThreeWay(s, i, j);
    p, q := s[..i], s[j..];
  }

  /** Whitespace around a string does not change its tokens. */
  lemma SplitBetweenSpace(p: string, m: string, q: string)
    requires AllSpace(p) && AllSpace(q)
    ensures Split(p + (m + q)) == Split(m)
  {
    SplitSpacePrefix(p, m + q);
    SplitSpaceSuffix(m, q);
  }

  lemma AllSpaceSlice(s: string, i: int, j: int)
    requires 0 <= i <= j <= |s|
    requires forall k :: i <= k < j ==> IsSpace(s[k])
    ensures AllSpace(s[i..j])
  {
    forall k | 0 <= k < j - i
      ensures IsSpace(s[i..j][k])
    {
      assert s[i..j][k] == s[i + k];
    }
  }

  lemma ThreeWay(s: string, i: int, j: int)
    requires 0 <= i <= j <= |s|
    ensures s == s[..i] + (s[i..j] + s[j..])
  {
  }

  /** Joining words with single spaces and splitting again gives the words back. */
  lemma {:induction false} SplitJoin(ws: seq<string>)
    requires AllWords(ws)
    ensures Split(Join(ws)) == ws
  {
    if |ws| == 1 {
      SplitWord(ws[0]);
    } else if |ws| > 1 {
      SplitCons(ws[0], Join(ws[1..]));
      SplitJoin(ws[1..]);
    }
  }

  lemma {:induction false} RemoveSpacesWord(w: string, t: string)
    requires NoSpace(w)
    ensures RemoveSpaces(w + t) == w + RemoveSpaces(t)
    decreases |w|
  {
    if |w| > 0 {
      assert !IsSpace(w[0]) && (w + t)[0] == w[0];
      assert (w + t)[1..] == w[1..] + t;
      RemoveSpacesWord(w[1..], t);
      Assoc([w[0]], w[1..], RemoveSpaces(t));
      assert w == [w[0]] + w[1..];
    } else {
      assert w + t == t;
    }
  }

  /** The tokens, glued together, are exactly the non-whitespace characters of
      the input, in their original order: nothing is dropped, added or moved. */
  lemma {:induction false} SplitKeepsText(s: string)
    ensures Concat(Split(s)) == RemoveSpaces(s)
    decreases |s|
  {
    if |s| > 0 {
      if IsSpace(s[0]) {
        SplitKeepsText(s[1..]);
      } else {
        var n := WordLength(s);
        WordLengthSpec(s);
        assert s == s[..n] + s[n..];
        RemoveSpacesWord(s[..n], s[n..]);
        SplitKeepsText(s[n..]);
        assert ([s[..n]] + Split(s[n..]))[1..] == Split(s[n..]);
      }
    }
  }

  /** Filtering out empty tokens is the identity on a sequence of words. */
  lemma {:induction false} DropEmptyWords(ws: seq<string>)
    requires AllWords(ws)
    ensures DropEmpty(ws) == ws
  {
    if |ws| > 0 {
      DropEmptyWords(ws[1..]);
      assert ws == [ws[0]] + ws[1..];
    }
  }

  /** Single-space joined words contain no newline. */
  lemma {:induction false} JoinNoNewline(ws: seq<string>)
    requires AllWords(ws)
    ensures NoNewline(Join(ws))
  {
    if |ws| > 1 {
      JoinNoNewline(ws[1..]);
      assert IsWord(ws[0]);
    } else if |ws| == 1 {
      assert IsWord(ws[0]);
    }
  }

  /** Prefixing the first word keeps a single-space join a single-space join. */
  lemma JoinPrefixFirst(p: string, ws: seq<string>)
    requires |ws| > 0
    ensures p + Join(ws) == Join([p + ws[0]] + ws[1..])
  {
    var v := [p + ws[0]] + ws[1..];
    assert v[0] == p + ws[0];
    if |ws| > 1 {
      assert v[1..] == ws[1..];
      Assoc(p, ws[0] + " ", Join(ws[1..]));
      Assoc(p, ws[0], " ");
    }
  }

  /** Suffixing the last word keeps a single-space join a single-space join. */
  lemma {:induction false} JoinSuffixLast(ws: seq<string>, q: string)
    requires |ws| > 0
    ensures Join(ws) + q == Join(ws[..|ws| - 1] + [ws[|ws| - 1] + q])
  {
    var v := ws[..|ws| - 1] + [ws[|ws| - 1] + q];
    if |ws| > 1 {
      var tail := ws[1..];
      JoinSuffixLast(tail, q);
      assert v[0] == ws[0];
      assert v[1..] == tail[..|tail| - 1] + [tail[|tail| - 1] + q];
      Assoc(ws[0] + " ", Join(tail), q);
    } else {
      assert v == [ws[0] + q];
    }
  }
}

=== FILE: wrappers.dfy ===
/** Failure-carrying wrappers used throughout the model: a parse that Python
    would abort with an exception yields `None` or `Err`. */
module Wrappers {

  /** A value that may be absent: a Python `None`, or a parse that raised. */
  datatype Option<+T> = None | Some(value: T) {

    predicate IsFailure() {
      None?
    }

    function PropagateFailure<U>(): Option<U>
      requires None?
    {
      None
    }

    function Extract(): T
      requires Some?
    {
      value
    }

    /** The encapsulated value, or `default` when there is none. */
    function GetOr(default: T): T {
      match this
      case Some(v) => v
      case None => default
    }
  }

  /** A computation that either succeeds with a value or fails with an error. */
  datatype Result<+R, +E> = Ok(value: R) | Err(error: E) {

    predicate IsFailure() {
      Err?
    }

    function PropagateFailure<U>(): Result<U, E>
      requires Err?
    {
      Err(error)
    }

    function Extract(): R
      requires Ok?
    {
      value
    }
  }
}
